=== FILE: README.md ===
# Manga reader core in Dafny

A model of the core of a self-hosted manga reader. The model covers these parts:

- **Metadata search.** `searchManga` asks MangaDex first and falls back to Kitsu only when MangaDex finds nothing or has no cover. When both answer, the cover and synopsis are merged field by field using JavaScript truthiness. The per-provider record extraction is modelled too: the MangaDex title fallback chain, the MangaDex cover URL, and the Kitsu poster choice.
- **Batch search.** `searchMangaBatch` searches titles in groups of three. It pauses 500 ms between searches inside a group and 2000 ms between groups.
- **Pagination.** `getPagination` clamps the query parameters, and `buildPaginatedResponse` computes the page metadata.
- **Reading progress.** `POST /api/progress` keeps the last position read and the farthest position read for each manga.
- **Bookmarks.** The `/api/bookmarks` routes: paginated listing, create, note update and delete.
- **Directory scan.** `POST /api/manga/scan` finds or creates one manga per sub-directory. The chapter and page filters and the image content-type table are modelled with it.
- **Browser client.** The `/covers/` path rewrite in the client API, and the reader store's chapter-view toggle, which is persisted in browser storage.

## How it is modelled

- **Pure functions.** Every operation is a pure function over immutable values.
- **Database tables.** Each table is a `map`: progress by manga id, bookmarks by id, manga by path. A route returns either the new table or an HTTP failure (`Http.Reply`).
- **HTTP requests.** A provider search takes the already-parsed answer as a parameter. The answer is either `Thrown` (any exception inside the search) or a body whose `data` array may be missing. The orchestrator takes the two provider searches as functions from title to optional record.
- **File system.** The directory listing is a parameter. In the scan a failed read is `None`; the chapter and page listings are taken as already read.
- **Timers.** The batch search returns the trace of searches and pauses it performs, together with the result map. `setTimeout` becomes a `Sleep(ms)` event.
- **JavaScript semantics.** Module `Js` models the semantics the code relies on: truthiness of optional strings (`""` is falsy), `||`, `startsWith`, the string order `<`, and `toLowerCase`.

The code has no similarity scoring, no acceptance threshold, no cover download or caching, and no lookup by external id. It takes the first search result (`limit=1`, then `data[0]`), and the model does the same.

## Model

| member | source | states |
|---|---|---|
| MangaDex.FirstResult | backend/src/services/mangadex.ts:144-150 | A search yields a record source exactly when the request did not throw and `data` is present and non-empty; that source is `data[0]` |
| MangaDex.OnlyFirstResultMatters | backend/src/services/mangadex.ts:150 | Results after the first never change the answer |
| MangaDex.SearchKitsu | backend/src/services/mangadex.ts:106-132 | Null exactly when there is no first result; otherwise title, synopsis, rating and status are the first result's, and the cover is `posterImage.large` when truthy, else `posterImage.medium` |
| MangaDex.KitsuIgnoresCoverImageAttribute | backend/src/services/mangadex.ts:121-127 | Kitsu's `coverImage` attribute never affects the record |
| MangaDex.DexTitle | backend/src/services/mangadex.ts:153-156 | The title is the first truthy one of `en`, `ja` and the first listed title, else the query; a non-empty query gives a non-empty title |
| MangaDex.FindCoverArt | backend/src/services/mangadex.ts:160 | Finds the first `cover_art` relationship, and finds none exactly when there is none |
| MangaDex.DexCover | backend/src/services/mangadex.ts:159-163 | A cover exists exactly when the first `cover_art` relationship has a truthy file name, and it is then the uploads URL of the manga id and that file |
| MangaDex.DexCoverIsUploadsUrl | backend/src/services/mangadex.ts:159-163 | Every MangaDex cover is `https://uploads.mangadex.org/covers/<id>/<non-empty file>` |
| MangaDex.SearchMangaDex | backend/src/services/mangadex.ts:137-178 | Null exactly when there is no first result; otherwise the record carries the chosen title, the cover, the English description, no rating and the status |
| MangaDex.Merge | backend/src/services/mangadex.ts:198-200 | Title, status and rating stay MangaDex's; the cover and synopsis come from Kitsu only where MangaDex's are falsy |
| MangaDex.SearchManga | backend/src/services/mangadex.ts:183-206 | Kitsu is asked exactly when MangaDex has no record or no truthy cover; otherwise the MangaDex record is returned untouched; with only one answer that answer is returned; with both they are merged |
| MangaDex.SearchFindsIffAProviderFinds | backend/src/services/mangadex.ts:186-205 | The search finds a record exactly when MangaDex or Kitsu finds one |
| MangaDex.SearchCoverIffAProviderHasCover | backend/src/services/mangadex.ts:189-201 | The answer has a truthy cover exactly when one of the providers' records has one |
| MangaDex.SearchKeepsMangaDexIdentity | backend/src/services/mangadex.ts:194-201 | When MangaDex answers, title, status and rating are MangaDex's, whatever Kitsu says |
| MangaDexBatch.IndexOf | backend/src/services/mangadex.ts:226 | `indexOf` is -1 exactly when the title is absent; otherwise it is the first position holding the title |
| MangaDexBatch.SearchMangaBatch | backend/src/services/mangadex.ts:211-239 | Every title is searched once in input order, duplicates included; the result map's keys are the distinct titles, and each maps to its search result; for distinct titles the trace is the per-position schedule of searches and pauses |
| MangaDexBatch.BatchFindsIffAProviderFinds | backend/src/services/mangadex.ts:183-239 | With `searchManga` as the per-title search, every title of the batch gets an entry, and it holds metadata exactly when MangaDex or Kitsu answers for that title |
| MangaDexBatch.SearchesOfBatch | backend/src/services/mangadex.ts:215-229 | The outer and inner loops together search exactly the titles from the loop index on, in order |
| MangaDexBatch.RecordedResults | backend/src/services/mangadex.ts:222-223 | After the run, every searched title maps to its result and titles not searched keep their entries |
| MangaDexBatch.GroupMatchesSchedule | backend/src/services/mangadex.ts:221-235 | For distinct titles, one group followed by its long pause is the per-position schedule: a short pause after every title except a group's last, and the long pause after a full group that has titles after it |
| MangaDexBatch.BatchMatchesSchedule | backend/src/services/mangadex.ts:215-236 | For distinct titles, the whole run is that per-position schedule |
| MangaDexBatch.BatchPauseCounts | backend/src/services/mangadex.ts:215-235 | For n > 0 distinct titles there are n − ⌈n/3⌉ short pauses and ⌈n/3⌉ − 1 long pauses |
| MangaDexBatch.FourTitles | backend/src/services/mangadex.ts:215-235 | Four distinct titles give search, 500, search, 500, search, 2000, search |
| MangaDexBatch.RepeatEndingGroupStillPauses | backend/src/services/mangadex.ts:221-229 | Any group whose last title already occurred earlier in the group still pauses 500 ms after that last search, because `indexOf` finds the earlier position |
| MangaDexBatch.DuplicateEndingGroupStillPauses | backend/src/services/mangadex.ts:215-229 | The whole run for the titles x, y, x, which is one group: three searches, each followed by a 500 ms pause |
| MangaDexBatch.EmptyBatch | backend/src/services/mangadex.ts:211-238 | No titles: no searches, no pauses and an empty result map |
| Pagination.GetPagination | backend/src/utils/pagination.ts:28-56 | No pagination exactly when both parameters are absent or either is not finite; otherwise `take` equals the page size and `skip` = (page − 1) · size; the page is ⌊page⌋ clamped to at least 1; the size is ⌊size⌋ clamped into [1, max] |
| Pagination.NoParametersNoPagination | backend/src/utils/pagination.ts:35-37 | A query with neither parameter is not paginated |
| Pagination.WindowIsThePage | backend/src/utils/pagination.ts:50-55 | Item i falls in `[skip, skip + take)` exactly when its zero-based page index i / take is page − 1 |
| Pagination.CeilDiv | backend/src/utils/pagination.ts:68 | `Math.ceil(total / size)` is the least r with total ≤ r · size |
| Pagination.BuildPaginatedResponse | backend/src/utils/pagination.ts:58-84 | The data and total are echoed; the page size is at least 1; the total pages is the ceiling of total / size, or 0 when empty; the current page is clamped into [1, total pages] and equals the request when that page exists: a page below 1 gives 1, a page past the end gives the last page, and a size below 1 becomes 1; `hasNext` and `hasPrev` hold exactly when a later or an earlier page exists |
| Pagination.EmptyListing | backend/src/utils/pagination.ts:68-81 | An empty dataset has zero pages, current page 0, and no next or previous page |
| Pagination.HasNextIffItemsRemain | backend/src/utils/pagination.ts:68-81 | For an existing page, `hasNext` holds exactly when items remain after the page's window |
| ProgressRoute.AtOrBeforeReflexive | backend/src/routes/progress.ts:40-43 | Every position is at or before itself |
| ProgressRoute.AtOrBeforeTotal | backend/src/routes/progress.ts:40-43 | Any two positions are comparable |
| ProgressRoute.AtOrBeforeTransitive | backend/src/routes/progress.ts:40-43 | The reading order is transitive |
| ProgressRoute.AtOrBeforeAntisymmetric | backend/src/routes/progress.ts:40-43 | Two positions each at or before the other are equal; with reflexivity, totality and transitivity, "at or before" is a total order and "farther" its strict part |
| ProgressRoute.Farthest | backend/src/routes/progress.ts:34-52 | With no stored record the submission is the farthest; otherwise the submission when it is farther, else the stored farthest |
| ProgressRoute.PostProgress | backend/src/routes/progress.ts:21-69 | 400 "Missing required fields" exactly when mangaId or chapterPath is falsy or pageNumber is missing; otherwise the record for that manga is upserted, its last position is the submission, a new record's farthest is the submission, and an existing record's farthest is the farther of its old farthest and the submission |
| ProgressRoute.FarthestIsTheMaximum | backend/src/routes/progress.ts:38-52 | The new farthest is the later of the stored farthest and the submission, and is one of them |
| ProgressRoute.NeverRegresses | backend/src/routes/progress.ts:38-69 | An accepted submission never moves the stored farthest position backwards |
| ProgressRoute.SubmitTwiceIsSubmitOnce | backend/src/routes/progress.ts:29-69 | Posting the same body twice leaves the same table as posting it once |
| ProgressRoute.OtherRecordsUnchanged | backend/src/routes/progress.ts:54-69 | Records of other manga are untouched |
| ProgressRoute.SubmitAll | backend/src/routes/progress.ts:54-61 | After a sequence of submissions the last position is the last submission |
| ProgressRoute.PostAllIsSubmitAll | backend/src/routes/progress.ts:21-69 | Posting a sequence of valid submissions for one manga through the route leaves exactly the record that folding the submissions from the stored one gives |
| ProgressRoute.PostedFarthestDominates | backend/src/routes/progress.ts:34-69 | After posting a non-empty sequence of valid submissions, every submitted position and the old farthest are at or before the stored farthest, which is one of them |
| ProgressRoute.FarthestDominatesHistory | backend/src/routes/progress.ts:34-61 | After any non-empty sequence of submissions, the farthest position is at or after every submission and the initial farthest, and is one of them |
| BookmarkRoute.ListWindow | backend/src/routes/bookmark.ts:10-21 | Without pagination the window is skip 0, take 50, page 1, size 50; with only a finite `page` sent the size defaults to 20; otherwise it is exactly the window `getPagination` computes with the route's options, at most 200 |
| BookmarkRoute.ListBookmarks | backend/src/routes/bookmark.ts:8-39 | The data is the window of the newest-first table and the total is the whole table's size; the total pages is the ceiling of that size over the page size, or 0 when empty; the current page is the requested one when it exists, and a request past the end answers the last page with no data; `hasNext` and `hasPrev` hold exactly when a later or an earlier page exists, and `hasNext` exactly when rows remain after the window |
| BookmarkRoute.TakeWindow | backend/src/routes/bookmark.ts:23-33 | A query with `skip` and `take` returns the rows at positions `skip` up to `skip + take`, clipped to the table: none when `skip` is past the end, otherwise as many as remain, at most `take` |
| BookmarkRoute.WindowAgainstTotal | backend/src/routes/bookmark.ts:18-36 | A page past the end skips every row, and an existing page has rows after its window exactly when it is not the last page |
| BookmarkRoute.UnpaginatedListing | backend/src/routes/bookmark.ts:12-15 | For a non-empty table, without parameters the listing is the 50 newest bookmarks as page 1, with a next page exactly when there are more than 50 |
| BookmarkRoute.CreateBookmark | backend/src/routes/bookmark.ts:63-83 | 400 exactly when a required field is missing; 500 when the id is taken; a valid body with an unused id always succeeds, adding one new row with the body's fields and note, and nothing else changes |
| BookmarkRoute.UpdateNote | backend/src/routes/bookmark.ts:86-98 | 500 exactly when the id is absent; otherwise only that row's note changes: to the string, to null, or not at all when `note` is not sent |
| BookmarkRoute.UpdateNoteIdempotent | backend/src/routes/bookmark.ts:90-93 | Sending the same note update twice equals sending it once |
| BookmarkRoute.DeleteBookmark | backend/src/routes/bookmark.ts:101-111 | 500 exactly when the id is absent; otherwise that row is removed and the rest kept |
| BookmarkRoute.CreateThenDelete | backend/src/routes/bookmark.ts:63-111 | Deleting a bookmark just created restores the table |
| MangaRoute.JoinInjective | backend/src/routes/manga.ts:35 | Different folder names in one directory give different paths |
| MangaRoute.Directories | backend/src/routes/manga.ts:30 | Exactly the directory entries are kept |
| MangaRoute.DirectoriesAppend | backend/src/routes/manga.ts:30 | The directory filter keeps listing order: filtering two concatenated listings is concatenating their filtered parts |
| MangaRoute.DirectoriesOne | backend/src/routes/manga.ts:30 | A single entry is kept exactly when it is a directory |
| MangaRoute.FindOrCreateAll | backend/src/routes/manga.ts:34-52 | One row is listed per directory, in order: the stored row with that path, or a new row titled after the folder with no cover |
| MangaRoute.Scan | backend/src/routes/manga.ts:21-58 | 400 when `dirPath` is falsy, 500 when reading fails, and otherwise the find-or-create list |
| MangaRoute.ScanKeepsStoredRows | backend/src/routes/manga.ts:38-49 | Stored rows are untouched, the only new rows are at scanned folder paths, and every listed row is stored under its folder's path |
| MangaRoute.ScanIdempotent | backend/src/routes/manga.ts:34-52 | Scanning the same listing again creates nothing and lists the same rows |
| MangaRoute.Extension | backend/src/routes/manga.ts:104 | An extension, when present, starts with '.' and is a proper suffix of the path |
| MangaRoute.ExtensionShape | backend/src/routes/manga.ts:104 | No '.' or '/' follows the extension's leading dot, and the extension is present exactly when the last path component has a dot that does not lead it |
| MangaRoute.ExtensionOfJoin | backend/src/routes/manga.ts:104-108 | A joined path has the same extension as the name that was joined on, so a page's listed path and its file name agree on the image type |
| MangaRoute.Chapters | backend/src/routes/manga.ts:71-77 | The chapters are exactly the sub-directories, each paired with its joined path |
| MangaRoute.ChaptersAppend | backend/src/routes/manga.ts:71-77 | Listing chapters keeps listing order: the chapters of two concatenated listings are the two lists of chapters concatenated |
| MangaRoute.ChaptersAreDirectories | backend/src/routes/manga.ts:71-77 | Before sorting, the chapters are the directories in listing order, position by position, each paired with its joined path |
| MangaRoute.Pages | backend/src/routes/manga.ts:98-109 | The pages are exactly the files whose lower-cased extension is one of the five image extensions, each paired with its joined path |
| MangaRoute.PagesAppend | backend/src/routes/manga.ts:98-109 | The page filter keeps listing order: the pages of two concatenated listings are the two lists of pages concatenated |
| MangaRoute.PagesOne | backend/src/routes/manga.ts:101-108 | A single entry gives exactly one page when it is an image file and none otherwise, so together with the append lemma each image file is listed once, in listing order |
| MangaRoute.ImageContentType | backend/src/routes/manga.ts:119-143 | 400 exactly when `imagePath` is not a non-empty string; 500 when reading fails; a non-empty path that can be read always succeeds, with the table's type for the lower-cased extension, or `image/jpeg` |
| MangaRoute.PageExtensionsAreTyped | backend/src/routes/manga.ts:98-136 | The page filter's extensions are exactly the content-type table's keys |
| MangaRoute.ListedPagesHaveTheirOwnType | backend/src/routes/manga.ts:101-138 | Every image file of a chapter is listed as a page, and that page is served with the type its own extension names, never the fallback |
| ClientApi.RewriteCover | frontend/src/api/index.ts:60-62 | A cover starting with `/covers/` gets the `/api/manga` prefix; any other cover, null included, is unchanged; the result never starts with `/covers/` |
| ClientApi.RewriteCoverIdempotent | frontend/src/api/index.ts:60-62 | Rewriting twice equals rewriting once |
| ClientApi.RewriteCoverRecoverable | frontend/src/api/index.ts:60-62 | A rewritten cover starts with `/api/manga/covers/`, and removing `/api/manga` gives the original |
| ClientApi.GetManga | frontend/src/api/index.ts:55-64 | Same length and order; each cover is rewritten and every other field is kept |
| ClientApi.GetMangaIdempotent | frontend/src/api/index.ts:58-63 | Applying the list rewrite to its own output changes nothing |
| ClientApi.GetHistory | frontend/src/api/index.ts:88-100 | Same length and order; a nested manga is kept with its cover rewritten, an absent one stays absent, and every other field is kept |
| ClientApi.HistoryRewritesLikeMangaList | frontend/src/api/index.ts:93-98 | A history item's manga is rewritten exactly as the manga list rewrites it |
| ReaderStore.BoolString | frontend/src/stores/reader.ts:15 | `String(b)` is `"true"` exactly when b holds |
| ReaderStore.Init | frontend/src/stores/reader.ts:5-11 | The mode starts false when nothing is stored; otherwise it holds exactly when the stored string is `"true"` |
| ReaderStore.Toggle | frontend/src/stores/reader.ts:13-16 | The mode flips, the stored string matches the new mode, and other keys are untouched |
| ReaderStore.Set | frontend/src/stores/reader.ts:18-21 | The mode becomes the argument, the stored string matches it, and other keys are untouched |
| ReaderStore.ToggleTwice | frontend/src/stores/reader.ts:13-16 | Two toggles restore the mode, with the stored string matching it; from a consistent state they restore the whole store |
| ReaderStore.SetIdempotent | frontend/src/stores/reader.ts:18-21 | Setting the same value twice equals setting it once |
| ReaderStore.ToggleIsSetOpposite | frontend/src/stores/reader.ts:13-21 | Toggling is setting the opposite of the current mode |
| ReaderStore.InitRestoresSavedMode | frontend/src/stores/reader.ts:8-21 | A store created later from the saved storage starts in the mode that toggle or set left |
| ReaderStore.InitOfConsistent | frontend/src/stores/reader.ts:8-11 | Storage written by the store reads back as the same store |

## Left out

- HTTP transport, JSON parsing and logging in `httpsGet`. A request's outcome is the `SearchAnswer` parameter, and any exception becomes `Thrown`.
- Timeouts. `httpsGet` sets no timeout, so a request that never answers stalls `searchManga` and with it the whole batch. The model assumes every request eventually answers or throws.
- Timers and concurrency. Pauses are trace events. `Promise.all` in the bookmark listing is a pair of reads of the same table.
- Database behaviour beyond the table maps. The following are not modelled:
  - generated ids other than the one passed to `CreateBookmark`;
  - `createdAt` and `updatedAt` stamps;
  - the bookmark's foreign key to its manga;
  - 500 answers for database failures in every route: the progress and scan routes, the bookmark listing's "Failed to fetch bookmarks", and the create, update and delete failures other than a taken or missing id (`BookmarkRoute.ListBookmarks` cannot fail);
  - the manga row that the bookmark listing includes with each bookmark (`include: { manga: true }`).
- Read-only routes: `GET /api/manga`, the progress `GET`, and the per-manga bookmark list. `backend/src/routes/history.ts`, `backend/src/index.ts`, `frontend/src/main.ts` and `frontend/vite.config.ts` are not part of this model.
- The 500 answers of the chapter and page routes when `readdir` fails, and `decodeURIComponent` of the chapter path, which throws on a malformed escape. MangaRoute.Chapters and MangaRoute.Pages take a listing that was read successfully and a decoded path.
- The 404 "Manga not found" answers of the chapter and page routes. The routes are modelled from the manga path onwards, after the lookup by id.
- MangaRoute.Chapters and MangaRoute.Pages model the listing before its final sort. Their order lemmas state that listing order is kept up to that point. The `localeCompare` numeric sort is not modelled.
- MangaRoute.Join is `dir + "/" + name`. Normalisation by `path.join` is not modelled: trailing slashes, `..` and empty parts.
- MangaRoute.Extension takes the last path component from its last dot on, provided that dot does not lead the component. It differs from `path.extname` in two cases. For the component `..`, `path.extname` answers `""` and the model answers `"."`. `path.extname` also ignores trailing slashes, and the model does not.
- Js.ToLower folds only ASCII letters. Unicode case mapping is not modelled.
- Js.StrLess compares characters. JavaScript compares UTF-16 code units, and the two orders differ only outside the Basic Multilingual Plane.
- ProgressRoute.PostProgress and BookmarkRoute.CreateBookmark take `pageNumber` as an optional integer. A JSON `null`, a fractional number or a non-number, which pass the `=== undefined` check, are not modelled.
- Pagination.GetPagination takes each query parameter after `Number()` as a `QueryNumber`: absent, not finite, or a finite value held as an exact real. The string-to-number coercion and IEEE double rounding are not modelled. In particular a huge finite page can make `(safePage - 1) * safePageSize` overflow to `Infinity` in the source, while the model's integers never overflow.
- Pagination.GetPagination does not state the size clamp when `maxPageSize` is below 1. No caller passes such a value.
- MangaDexBatch.SearchMangaBatch: with a pure search function, "the last search for a repeated title wins" cannot be told apart from "any search wins". Only the value is stated.
- Axios calls and `getImageUrl` encoding in the client. Vue and Pinia reactivity. The real browser storage API, which is modelled as a string map.

=== FILE: batch.dfy ===
/** `searchMangaBatch`: titles searched in groups of three with pauses between
    searches and between groups. Timers are not modelled; a run is the trace of
    searches and pauses it performs together with the result map it returns. */
module MangaDexBatch {
  import opened Js
  import opened MangaDex

  const BatchSize := 3
  const DelayBetweenBatches := 2000
  const DelayBetweenRequests := 500

  /** One step of a batch run: a `searchManga` call or a `setTimeout` pause in milliseconds. */
  datatype Event = Search(title: string) | Sleep(ms: int)

  datatype BatchRun = BatchRun(trace: seq<Event>, results: map<string, Option<Metadata>>)

  predicate Distinct(s: seq<string>) {
    forall a, b :: 0 <= a < b < |s| ==> s[a] != s[b]
  }

  /** `s.indexOf(x)`: the first position of `x`, or -1. */
  function IndexOf(s: seq<string>, x: string): (r: int)
    ensures r == -1 <==> x !in s
    ensures r != -1 ==> 0 <= r < |s| && s[r] == x && forall k :: 0 <= k < r ==> s[k] != x
  {
    if |s| == 0 then -1
    else if s[0] == x then 0
    else
      var r := IndexOf(s[1..], x);
      assert x in s <==> x in s[1..];
      if r == -1 then -1 else r + 1
  }

  /** The inner loop over `batch[j..]`: each search is followed by a short pause
      unless the title's first position in the batch is the batch's last. */
  function GroupTrace(batch: seq<string>, j: nat): seq<Event>
    decreases |batch| - j
  {
    if j >= |batch| then []
    else [Search(batch[j])]
         + (if IndexOf(batch, batch[j]) < |batch| - 1 then [Sleep(DelayBetweenRequests)] else [])
         + GroupTrace(batch, j + 1)
  }

  /** The outer loop from index `i`: one group, then a long pause when more titles follow. */
  function BatchTrace(titles: seq<string>, i: nat): seq<Event>
    decreases |titles| - i
  {
    if i >= |titles| then []
    else GroupTrace(titles[i..Min(i + BatchSize, |titles|)], 0)
         + LongPause(titles, i)
         + BatchTrace(titles, i + BatchSize)
  }

  /** The titles searched, in trace order. */
  function Searches(trace: seq<Event>): seq<string> {
    if |trace| == 0 then []
    else (if trace[0].Search? then [trace[0].title] else []) + Searches(trace[1..])
  }

  /** `results.set(title, metadata)` right after every search of the trace. */
  function Record(trace: seq<Event>, resolve: string -> Option<Metadata>, acc: map<string, Option<Metadata>>)
    : map<string, Option<Metadata>>
  {
    if |trace| == 0 then acc
    else Record(trace[1..], resolve,
                if trace[0].Search? then acc[trace[0].title := resolve(trace[0].title)] else acc)
  }

  /** `searchMangaBatch(titles)`, with `searchManga` as the parameter `resolve`. */
  function SearchMangaBatch(titles: seq<string>, resolve: string -> Option<Metadata>): (r: BatchRun)
    ensures Searches(r.trace) == titles
    ensures r.results.Keys == set t | t in titles
    ensures forall t :: t in r.results ==> r.results[t] == resolve(t)
    ensures Distinct(titles) ==> r.trace == Schedule(titles, 0, |titles|)
  {
    var trace := BatchTrace(titles, 0);
    BatchFollowsSchedule(titles);
    SearchesOfBatch(titles, 0);
    RecordedResults(trace, resolve, map[]);
    BatchRun(trace, Record(trace, resolve, map[]))
  }

  /** `searchManga` itself as the batch's per-title search. */
  function SearchMangaWith(dex: string -> Option<Metadata>, kitsu: string -> Option<Metadata>): string -> Option<Metadata> {
    t => SearchManga(t, dex, kitsu).metadata
  }

  /** For distinct titles the batch's trace is the per-position schedule. */
  lemma BatchFollowsSchedule(titles: seq<string>)
    ensures Distinct(titles) ==> BatchTrace(titles, 0) == Schedule(titles, 0, |titles|)
  {
    if Distinct(titles) {
      BatchMatchesSchedule(titles, 0);
    }
  }

  /** With `searchManga` as the per-title search, a title of the batch has metadata
      exactly when one of the two providers answers for it. */
  lemma BatchFindsIffAProviderFinds(titles: seq<string>, dex: string -> Option<Metadata>,
                                    kitsu: string -> Option<Metadata>, t: string)
    requires t in titles
    ensures t in SearchMangaBatch(titles, SearchMangaWith(dex, kitsu)).results
    ensures SearchMangaBatch(titles, SearchMangaWith(dex, kitsu)).results[t].Some?
            <==> dex(t).Some? || kitsu(t).Some?
  {
    SearchFindsIffAProviderFinds(t, dex, kitsu);
  }

  // ------------------------------------------------------- searches and results

  lemma {:induction false} SearchesAppend(a: seq<Event>, b: seq<Event>)
    ensures Searches(a + b) == Searches(a) + Searches(b)
    decreases |a|
  {
    if |a| == 0 {
      assert a + b == b;
    } else {
      assert (a + b)[0] == a[0];
      assert (a + b)[1..] == a[1..] + b;
      SearchesAppend(a[1..], b);
    }
  }

  lemma {:induction false} SearchesOfGroup(batch: seq<string>, j: nat)
    requires j <= |batch|
    ensures Searches(GroupTrace(batch, j)) == batch[j..]
    decreases |batch| - j
  {
    if j < |batch| {
      var pause: seq<Event> := if IndexOf(batch, batch[j]) < |batch| - 1 then [Sleep(DelayBetweenRequests)] else [];
      SearchesOfGroup(batch, j + 1);
      SearchesAppend([Search(batch[j])] + pause, GroupTrace(batch, j + 1));
      SearchesAppend([Search(batch[j])], pause);
      assert Searches(pause) == [];
      assert batch[j..] == [batch[j]] + batch[j + 1..];
    }
  }

  /** Every title is searched once, in input order, duplicates included. */
  lemma {:induction false} SearchesOfBatch(titles: seq<string>, i: nat)
    requires i <= |titles|
    ensures Searches(BatchTrace(titles, i)) == titles[i..]
    decreases |titles| - i
  {
    if i < |titles| {
      var e := Min(i + BatchSize, |titles|);
      var group, pause, rest := GroupTrace(titles[i..e], 0), LongPause(titles, i), BatchTrace(titles, i + BatchSize);
      assert BatchTrace(titles, i) == group + pause + rest;
      if e < |titles| {
        SearchesOfBatch(titles, i + BatchSize);
      } else {
        assert rest == [] && titles[e..] == [];
      }
      SearchesOfStep(titles, i, e, group, pause, rest);
    }
  }

  /** One step of the outer loop: the group's searches, then the rest's. */
  lemma SearchesOfStep(titles: seq<string>, i: nat, e: nat, group: seq<Event>, pause: seq<Event>, rest: seq<Event>)
    requires i <= e <= |titles|
    requires group == GroupTrace(titles[i..e], 0) && Searches(pause) == [] && Searches(rest) == titles[e..]
    ensures Searches(group + pause + rest) == titles[i..]
  {
    var batch := titles[i..e];
    SearchesOfGroup(batch, 0);
    assert batch[0..] == batch;
    SearchesAppend(group, pause);
    assert Searches(group + pause) == batch + [] == batch;
    SearchesAppend(group + pause, rest);
    assert titles[i..] == batch + titles[e..];
  }

  lemma {:induction false} RecordedResults(trace: seq<Event>, resolve: string -> Option<Metadata>,
                                           acc: map<string, Option<Metadata>>)
    ensures var m := Record(trace, resolve, acc);
      && m.Keys == acc.Keys + (set t | t in Searches(trace))
      && (forall t :: t in Searches(trace) ==> m[t] == resolve(t))
      && (forall t :: t in acc && t !in Searches(trace) ==> m[t] == acc[t])
    decreases |trace|
  {
    if |trace| > 0 {
      var acc' := if trace[0].Search? then acc[trace[0].title := resolve(trace[0].title)] else acc;
      RecordedResults(trace[1..], resolve, acc');
    }
  }

  // ------------------------------------------------------ the pause schedule

  /** The pause after the title at position `k` of `n`: none after the last,
      the long pause after each group's third title, the short one otherwise. */
  function PauseAfter(n: nat, k: nat): seq<Event> {
    if k + 1 == n then []
    else if k % BatchSize == BatchSize - 1 then [Sleep(DelayBetweenBatches)]
    else [Sleep(DelayBetweenRequests)]
  }

  /** The intended schedule for positions `lo..hi`, described per position
      rather than per group. */
  function Schedule(titles: seq<string>, lo: nat, hi: nat): seq<Event>
    requires lo <= hi <= |titles|
    decreases hi - lo
  {
    if lo == hi then [] else [Search(titles[lo])] + PauseAfter(|titles|, lo) + Schedule(titles, lo + 1, hi)
  }

  lemma {:induction false} ScheduleSplit(titles: seq<string>, lo: nat, mid: nat, hi: nat)
    requires lo <= mid <= hi <= |titles|
    ensures Schedule(titles, lo, mid) + Schedule(titles, mid, hi) == Schedule(titles, lo, hi)
    decreases mid - lo
  {
    if lo < mid {
      ScheduleSplit(titles, lo + 1, mid, hi);
    }
  }

  lemma DistinctIndexOf(batch: seq<string>, j: nat)
    requires Distinct(batch) && j < |batch|
    ensures IndexOf(batch, batch[j]) == j
  {
  }

  lemma DistinctSlice(titles: seq<string>, lo: nat, hi: nat)
    requires Distinct(titles) && lo <= hi <= |titles|
    ensures Distinct(titles[lo..hi])
  {
    var batch := titles[lo..hi];
    forall a, b | 0 <= a < b < |batch| ensures batch[a] != batch[b] {
      assert batch[a] == titles[lo + a] && batch[b] == titles[lo + b];
    }
  }

  lemma PositionInGroup(i: nat, j: nat)
    requires i % BatchSize == 0 && j < BatchSize
    ensures (i + j) % BatchSize == j
  {
  }

  /** The long pause that follows the group starting at `i`, if any. */
  function LongPause(titles: seq<string>, i: nat): seq<Event> {
    if i + BatchSize < |titles| then [Sleep(DelayBetweenBatches)] else []
  }

  /** One group of distinct titles, followed by its long pause, is the schedule of its positions. */
  lemma {:induction false} GroupMatchesSchedule(titles: seq<string>, i: nat, j: nat)
    requires Distinct(titles) && i % BatchSize == 0 && i < |titles|
    requires j < Min(i + BatchSize, |titles|) - i
    ensures var e := Min(i + BatchSize, |titles|);
      GroupTrace(titles[i..e], j) + LongPause(titles, i) == Schedule(titles, i + j, e)
    decreases BatchSize - j
  {
    var e := Min(i + BatchSize, |titles|);
    DistinctSlice(titles, i, e);
    if j == e - i - 1 {
      GroupLast(titles, i, j);
    } else {
      GroupMatchesSchedule(titles, i, j + 1);
      GroupStep(titles, i, j);
    }
  }

  /** The last title of a group: its search, then the group's long pause if any. */
  lemma GroupLast(titles: seq<string>, i: nat, j: nat)
    requires i % BatchSize == 0 && i < |titles|
    requires j == Min(i + BatchSize, |titles|) - i - 1
    requires Distinct(titles[i..Min(i + BatchSize, |titles|)])
    ensures var e := Min(i + BatchSize, |titles|);
      GroupTrace(titles[i..e], j) + LongPause(titles, i) == Schedule(titles, i + j, e)
  {
    var e := Min(i + BatchSize, |titles|);
    var batch := titles[i..e];
    DistinctIndexOf(batch, j);
    PositionInGroup(i, j);
    assert GroupTrace(batch, j + 1) == [];
    assert Schedule(titles, i + j + 1, e) == [];
    assert PauseAfter(|titles|, i + j) == LongPause(titles, i);
    assert GroupTrace(batch, j) == [Search(titles[i + j])];
  }

  /** A title that is not its group's last: its search, the short pause, then the rest. */
  lemma GroupStep(titles: seq<string>, i: nat, j: nat)
    requires i % BatchSize == 0 && i < |titles|
    requires j + 1 < Min(i + BatchSize, |titles|) - i
    requires Distinct(titles[i..Min(i + BatchSize, |titles|)])
    requires var e := Min(i + BatchSize, |titles|);
      GroupTrace(titles[i..e], j + 1) + LongPause(titles, i) == Schedule(titles, i + j + 1, e)
    ensures var e := Min(i + BatchSize, |titles|);
      GroupTrace(titles[i..e], j) + LongPause(titles, i) == Schedule(titles, i + j, e)
  {
    var e := Min(i + BatchSize, |titles|);
    var batch := titles[i..e];
    DistinctIndexOf(batch, j);
    PositionInGroup(i, j);
    var head := [Search(titles[i + j])] + [Sleep(DelayBetweenRequests)];
    assert PauseAfter(|titles|, i + j) == [Sleep(DelayBetweenRequests)];
    assert GroupTrace(batch, j) == head + GroupTrace(batch, j + 1);
    assert Schedule(titles, i + j, e) == head + Schedule(titles, i + j + 1, e);
    AppendAssoc(head, GroupTrace(batch, j + 1), LongPause(titles, i));
  }

  lemma AppendAssoc(a: seq<Event>, b: seq<Event>, c: seq<Event>)
    ensures (a + b) + c == a + (b + c)
  {
  }

  /** For distinct titles the source's group-by-group loop performs exactly the
      per-position schedule. */
  lemma {:induction false} BatchMatchesSchedule(titles: seq<string>, i: nat)
    requires Distinct(titles) && i % BatchSize == 0 && i <= |titles|
    ensures BatchTrace(titles, i) == Schedule(titles, i, |titles|)
    decreases |titles| - i
  {
    if i < |titles| {
      var e := Min(i + BatchSize, |titles|);
      var group := GroupTrace(titles[i..e], 0) + LongPause(titles, i);
      assert BatchTrace(titles, i) == group + BatchTrace(titles, i + BatchSize);
      GroupMatchesSchedule(titles, i, 0);
      assert group == Schedule(titles, i, e);
      if e < |titles| {
        NextGroupAligned(i);
        BatchMatchesSchedule(titles, e);
        ScheduleSplit(titles, i, e, |titles|);
      } else {
        assert BatchTrace(titles, i + BatchSize) == [];
        assert group + [] == group;
      }
    }
  }

  /** The next group starts on a multiple of the group size too. */
  lemma NextGroupAligned(i: nat)
    requires i % BatchSize == 0
    ensures (i + BatchSize) % BatchSize == 0
  {
  }

  // ------------------------------------------------------------ pause counts

  /** The number of occurrences of `e` in the trace. */
  function Count(trace: seq<Event>, e: Event): nat {
    if |trace| == 0 then 0 else (if trace[0] == e then 1 else 0) + Count(trace[1..], e)
  }

  lemma {:induction false} SchedulePrefixCounts(titles: seq<string>, k: nat)
    requires k < |titles|
    ensures Count(Schedule(titles, 0, k), Sleep(DelayBetweenRequests)) == k - k / BatchSize
    ensures Count(Schedule(titles, 0, k), Sleep(DelayBetweenBatches)) == k / BatchSize
  {
    if k > 0 {
      SchedulePrefixCounts(titles, k - 1);
      ScheduleSplit(titles, 0, k - 1, k);
      var prev := Schedule(titles, 0, k - 1);
      var step := Schedule(titles, k - 1, k);
      assert Schedule(titles, 0, k) == prev + step;
      StepCounts(titles, k - 1);
      ThirdsStep(k);
      CountAppend(Schedule(titles, 0, k - 1), step, Sleep(DelayBetweenRequests));
      CountAppend(Schedule(titles, 0, k - 1), step, Sleep(DelayBetweenBatches));
    }
  }

  lemma StepCounts(titles: seq<string>, k: nat)
    requires k + 1 < |titles|
    ensures Count(Schedule(titles, k, k + 1), Sleep(DelayBetweenRequests)) == if k % BatchSize == BatchSize - 1 then 0 else 1
    ensures Count(Schedule(titles, k, k + 1), Sleep(DelayBetweenBatches)) == if k % BatchSize == BatchSize - 1 then 1 else 0
  {
    assert Schedule(titles, k + 1, k + 1) == [];
    var pause := PauseAfter(|titles|, k);
    assert Schedule(titles, k, k + 1) == [Search(titles[k])] + pause;
    CountAppend([Search(titles[k])], pause, Sleep(DelayBetweenRequests));
    CountAppend([Search(titles[k])], pause, Sleep(DelayBetweenBatches));
    CountOne(Search(titles[k]), Sleep(DelayBetweenRequests));
    CountOne(Search(titles[k]), Sleep(DelayBetweenBatches));
    CountOne(pause[0], Sleep(DelayBetweenRequests));
    CountOne(pause[0], Sleep(DelayBetweenBatches));
  }

  lemma CountOne(x: Event, e: Event)
    ensures Count([x], e) == if x == e then 1 else 0
  {
    assert [x][1..] == [];
  }

  lemma ThirdsStep(k: nat)
    requires k > 0
    ensures k / BatchSize == (k - 1) / BatchSize + (if (k - 1) % BatchSize == BatchSize - 1 then 1 else 0)
  {
  }

  lemma CeilingThirds(n: nat)
    requires n > 0
    ensures (n - 1) / BatchSize == (n + BatchSize - 1) / BatchSize - 1
  {
  }

  /** For n distinct titles: n - ceil(n/3) short pauses and ceil(n/3) - 1 long ones. */
  lemma BatchPauseCounts(titles: seq<string>)
    requires Distinct(titles) && |titles| > 0
    ensures var groups := (|titles| + BatchSize - 1) / BatchSize;
      && Count(BatchTrace(titles, 0), Sleep(DelayBetweenRequests)) == |titles| - groups
      && Count(BatchTrace(titles, 0), Sleep(DelayBetweenBatches)) == groups - 1
  {
    var n := |titles|;
    CeilingThirds(n);
    BatchMatchesSchedule(titles, 0);
    ScheduleCounts(titles);
  }

  lemma ScheduleCounts(titles: seq<string>)
    requires |titles| > 0
    ensures Count(Schedule(titles, 0, |titles|), Sleep(DelayBetweenRequests)) == (|titles| - 1) - (|titles| - 1) / BatchSize
    ensures Count(Schedule(titles, 0, |titles|), Sleep(DelayBetweenBatches)) == (|titles| - 1) / BatchSize
  {
    LastTitleAddsNoPause(titles);
    SchedulePrefixCounts(titles, |titles| - 1);
  }

  lemma LastTitleAddsNoPause(titles: seq<string>)
    requires |titles| > 0
    ensures Count(Schedule(titles, 0, |titles|), Sleep(DelayBetweenRequests))
         == Count(Schedule(titles, 0, |titles| - 1), Sleep(DelayBetweenRequests))
    ensures Count(Schedule(titles, 0, |titles|), Sleep(DelayBetweenBatches))
         == Count(Schedule(titles, 0, |titles| - 1), Sleep(DelayBetweenBatches))
  {
    var n := |titles|;
    LastStep(titles);
    CountAppendOther(Schedule(titles, 0, n - 1), Search(titles[n - 1]), Sleep(DelayBetweenRequests));
    CountAppendOther(Schedule(titles, 0, n - 1), Search(titles[n - 1]), Sleep(DelayBetweenBatches));
  }

  /** The last title of the run is followed by no pause. */
  lemma LastStep(titles: seq<string>)
    requires |titles| > 0
    ensures Schedule(titles, 0, |titles|) == Schedule(titles, 0, |titles| - 1) + [Search(titles[|titles| - 1])]
  {
    assert Schedule(titles, |titles|, |titles|) == [];
    ScheduleSplit(titles, 0, |titles| - 1, |titles|);
  }

  lemma CountAppendOther(a: seq<Event>, x: Event, e: Event)
    requires x != e
    ensures Count(a + [x], e) == Count(a, e)
  {
    CountAppend(a, [x], e);
    CountOne(x, e);
  }

  lemma {:induction false} CountAppend(a: seq<Event>, b: seq<Event>, e: Event)
    ensures Count(a + b, e) == Count(a, e) + Count(b, e)
    decreases |a|
  {
    if |a| == 0 {
      assert a + b == b;
    } else {
      assert (a + b)[0] == a[0];
      assert (a + b)[1..] == a[1..] + b;
      CountAppend(a[1..], b, e);
    }
  }

  /** An empty batch searches nothing and never pauses. */
  lemma EmptyBatch(resolve: string -> Option<Metadata>)
    ensures SearchMangaBatch([], resolve) == BatchRun([], map[])
  {
  }

  /** Four titles: one group of three with short pauses, a long pause, then the fourth alone. */
  lemma FourTitles(a: string, b: string, c: string, d: string)
    requires Distinct([a, b, c, d])
    ensures BatchTrace([a, b, c, d], 0)
      == [Search(a), Sleep(DelayBetweenRequests), Search(b), Sleep(DelayBetweenRequests), Search(c),
          Sleep(DelayBetweenBatches), Search(d)]
  {
    var t := [a, b, c, d];
    BatchMatchesSchedule(t, 0);
    assert PauseAfter(4, 3) == [];
    assert PauseAfter(4, 2) == [Sleep(DelayBetweenBatches)];
    assert PauseAfter(4, 1) == [Sleep(DelayBetweenRequests)];
    assert PauseAfter(4, 0) == [Sleep(DelayBetweenRequests)];
    assert Schedule(t, 3, 4) == [Search(d)];
    assert Schedule(t, 2, 4) == [Search(c), Sleep(DelayBetweenBatches)] + Schedule(t, 3, 4);
    assert Schedule(t, 1, 4) == [Search(b), Sleep(DelayBetweenRequests)] + Schedule(t, 2, 4);
    assert Schedule(t, 0, 4) == [Search(a), Sleep(DelayBetweenRequests)] + Schedule(t, 1, 4);
  }

  /** `indexOf` finds a repeated title's first position, so a group whose last
      title already occurred earlier in the group still pauses after that last search. */
  lemma RepeatEndingGroupStillPauses(batch: seq<string>)
    requires |batch| >= 2 && batch[|batch| - 1] in batch[..|batch| - 1]
    ensures GroupTrace(batch, |batch| - 1) == [Search(batch[|batch| - 1]), Sleep(DelayBetweenRequests)]
  {
    var last := |batch| - 1;
    var k :| 0 <= k < last && batch[..last][k] == batch[last];
    assert IndexOf(batch, batch[last]) <= k;
    assert GroupTrace(batch, |batch|) == [];
  }

  /** The smallest such group: `x` is searched twice and both searches are followed by a short pause. */
  lemma DuplicateEndingGroupStillPauses()
    ensures BatchTrace(["x", "y", "x"], 0)
      == [Search("x"), Sleep(DelayBetweenRequests), Search("y"), Sleep(DelayBetweenRequests),
          Search("x"), Sleep(DelayBetweenRequests)]
  {
    var batch := ["x", "y", "x"];
    assert batch[0..Min(0 + BatchSize, 3)] == batch;
    assert batch[..2] == ["x", "y"];
    RepeatEndingGroupStillPauses(batch);
    assert IndexOf(batch, "x") == 0;
    assert IndexOf(batch, "y") == 1;
  }
}

=== FILE: bookmark.dfy ===
/** The `/api/bookmarks` routes: paginated listing, creation, note update and
    deletion. The bookmark table is a map from bookmark id to its row. */
module BookmarkRoute {
  import opened Js
  import opened Http
  import opened Pagination

  datatype Bookmark = Bookmark(id: string, mangaId: string, chapterPath: string, pageNumber: int, note: Option<string>)

  /** The JSON body of a create request; a field is None when it was not sent. */
  datatype CreateBody = CreateBody(mangaId: Option<string>, chapterPath: Option<string>, pageNumber: Option<int>, note: Option<string>)

  /** The `note` of an update body: not sent (the column is left alone), `null`, or a string. */
  datatype NoteField = Omitted | Null | Text(text: string)

  type BookmarkTable = map<string, Bookmark>

  datatype Created = Created(table: BookmarkTable, record: Bookmark)

  const ListDefaultPageSize := 20
  const UnpaginatedTake := 50
  const CreateFailed := "Failed to create bookmark"
  const UpdateFailed := "Failed to update bookmark"
  const DeleteFailed := "Failed to delete bookmark"

  const ListOptions := Options(Some(ListDefaultPageSize), None)

  /** The skip, take, page and page size the listing uses. */
  function ListWindow(page: QueryNumber, pageSize: QueryNumber): (r: Params)
    ensures GetPagination(page, pageSize, ListOptions).None? ==> r == Params(0, UnpaginatedTake, 1, UnpaginatedTake)
    ensures GetPagination(page, pageSize, ListOptions).Some? ==> r == GetPagination(page, pageSize, ListOptions).value
    ensures page.Absent? && pageSize.Absent? ==> r == Params(0, UnpaginatedTake, 1, UnpaginatedTake)
    ensures page.Finite? && pageSize.Absent? ==> r.pageSize == ListDefaultPageSize
    ensures 1 <= r.take == r.pageSize <= MaxPageSize && r.page >= 1
    ensures r.skip == (r.page - 1) * r.take && r.skip >= 0
  {
    match GetPagination(page, pageSize, ListOptions)
    case None => Params(0, UnpaginatedTake, 1, UnpaginatedTake)
    case Some(p) => MulMono(0, p.page - 1, p.take); p
  }

  /** `GET /api/bookmarks`: `ordered` is the whole table newest first; the
      answer is the window the query selects and the metadata for the total count. */
  function ListBookmarks(ordered: seq<Bookmark>, page: QueryNumber, pageSize: QueryNumber): (r: Paginated<Bookmark>)
    ensures var w := ListWindow(page, pageSize);
      && r.data == TakeWindow(ordered, w.skip, w.take)
      && r.pagination.totalItems == |ordered|
      && r.pagination.pageSize == w.pageSize
      && r.pagination.totalPages == (if |ordered| == 0 then 0 else CeilDiv(|ordered|, w.pageSize))
      && (|ordered| > 0 && w.page <= r.pagination.totalPages ==> r.pagination.currentPage == w.page)
      && (|ordered| > 0 && w.page > r.pagination.totalPages ==> r.pagination.currentPage == r.pagination.totalPages && r.data == [])
      && (|ordered| == 0 ==> r.pagination.currentPage == 0 && r.data == [])
      && (r.pagination.hasNext <==> r.pagination.currentPage < r.pagination.totalPages)
      && (r.pagination.hasPrev <==> r.pagination.currentPage > 1)
      && (|ordered| > 0 && w.page <= r.pagination.totalPages ==> (r.pagination.hasNext <==> w.skip + w.take < |ordered|))
    ensures |r.data| <= MaxPageSize
  {
    var w := ListWindow(page, pageSize);
    WindowAgainstTotal(|ordered|, w);
    BuildPaginatedResponse(TakeWindow(ordered, w.skip, w.take), |ordered|, w.page, w.pageSize)
  }

  /** The rows a query with `skip` and `take` returns: the ones at positions
      `skip` up to, not including, `skip + take`. */
  function TakeWindow<T>(rows: seq<T>, skip: int, take: int): (r: seq<T>)
    requires skip >= 0 && take >= 0
    ensures |r| == if skip >= |rows| then 0 else Min(take, |rows| - skip)
    ensures forall i :: 0 <= i < |r| ==> r[i] == rows[skip + i]
  {
    if skip >= |rows| then [] else rows[skip..Min(skip + take, |rows|)]
  }

  /** Where the window lies against a non-empty table: past its end when the page
      does not exist, and followed by more items exactly when a later page exists. */
  lemma WindowAgainstTotal(n: int, w: Params)
    requires 1 <= w.take == w.pageSize && w.page >= 1 && w.skip == (w.page - 1) * w.take
    ensures n > 0 && w.page > CeilDiv(n, w.pageSize) ==> w.skip >= n
    ensures n > 0 && w.page <= CeilDiv(n, w.pageSize) ==> (w.skip + w.take < n <==> w.page < CeilDiv(n, w.pageSize))
  {
    if n > 0 {
      var pages := CeilDiv(n, w.pageSize);
      if w.page > pages {
        MulMono(pages, w.page - 1, w.take);
      } else {
        HasNextIffItemsRemain(n, w);
      }
    }
  }

  /** Without query parameters the listing is the 50 newest bookmarks as page 1. */
  lemma UnpaginatedListing(ordered: seq<Bookmark>)
    requires |ordered| > 0
    ensures var r := ListBookmarks(ordered, Absent, Absent);
      && r.data == TakeWindow(ordered, 0, UnpaginatedTake)
      && r.pagination.currentPage == 1
      && r.pagination.pageSize == UnpaginatedTake
      && (r.pagination.hasNext <==> |ordered| > UnpaginatedTake)
  {
    var n := |ordered|;
    var info := ListBookmarks(ordered, Absent, Absent).pagination;
    var pages := CeilDiv(n, UnpaginatedTake);
    assert info.totalPages == pages;
    if n > UnpaginatedTake {
      assert pages > 1;
    } else {
      assert pages == 1;
    }
  }

  /** `POST /api/bookmarks`; `freshId` is the id the database assigns. */
  function CreateBookmark(table: BookmarkTable, body: CreateBody, freshId: string): (r: Reply<Created>)
    ensures r.Fail? && r.status == 400 <==> !HasRequiredFields(body.mangaId, body.chapterPath, body.pageNumber)
    ensures r.Fail? && r.status == 400 ==> r.message == MissingFields
    ensures HasRequiredFields(body.mangaId, body.chapterPath, body.pageNumber) && freshId in table ==> r == Fail(500, CreateFailed)
    ensures HasRequiredFields(body.mangaId, body.chapterPath, body.pageNumber) && freshId !in table ==> r.Ok?
    ensures r.Ok? ==>
      && r.value.record == Bookmark(freshId, body.mangaId.value, body.chapterPath.value, body.pageNumber.value, body.note)
      && freshId !in table
      && r.value.table == table[freshId := r.value.record]
  {
    if !HasRequiredFields(body.mangaId, body.chapterPath, body.pageNumber) then
      Fail(400, MissingFields)
    else if freshId in table then
      Fail(500, CreateFailed)
    else
      var b := Bookmark(freshId, body.mangaId.value, body.chapterPath.value, body.pageNumber.value, body.note);
      Ok(Created(table[freshId := b], b))
  }

  /** The note column after an update with `note`. */
  function NewNote(current: Option<string>, note: NoteField): Option<string> {
    match note
    case Omitted => current
    case Null => None
    case Text(t) => Some(t)
  }

  /** `PUT /api/bookmarks/:id` with body `{ note }`. */
  function UpdateNote(table: BookmarkTable, id: string, note: NoteField): (r: Reply<BookmarkTable>)
    ensures r.Fail? <==> id !in table
    ensures r.Fail? ==> r == Fail(500, UpdateFailed)
    ensures r.Ok? ==> r.value.Keys == table.Keys
    ensures r.Ok? ==> forall k :: k in table && k != id ==> r.value[k] == table[k]
    ensures r.Ok? ==> var b := r.value[id];
      && b.id == table[id].id && b.mangaId == table[id].mangaId
      && b.chapterPath == table[id].chapterPath && b.pageNumber == table[id].pageNumber
    ensures r.Ok? && note.Text? ==> r.value[id].note == Some(note.text)
    ensures r.Ok? && note.Null? ==> r.value[id].note.None?
    ensures r.Ok? && note.Omitted? ==> r.value == table
  {
    if id !in table then Fail(500, UpdateFailed)
    else Ok(table[id := table[id].(note := NewNote(table[id].note, note))])
  }

  /** `DELETE /api/bookmarks/:id`. */
  function DeleteBookmark(table: BookmarkTable, id: string): (r: Reply<BookmarkTable>)
    ensures r.Fail? <==> id !in table
    ensures r.Ok? ==> r.value.Keys == table.Keys - {id}
    ensures r.Ok? ==> forall k :: k in r.value ==> r.value[k] == table[k]
  {
    if id !in table then Fail(500, DeleteFailed) else Ok(table - {id})
  }

  /** Sending the same note update twice has the effect of sending it once. */
  lemma UpdateNoteIdempotent(table: BookmarkTable, id: string, note: NoteField)
    requires id in table
    ensures UpdateNote(UpdateNote(table, id, note).value, id, note) == UpdateNote(table, id, note)
  {
    var once := UpdateNote(table, id, note).value;
    assert once[id := once[id].(note := NewNote(once[id].note, note))] == once;
  }

  /** Deleting a bookmark just created restores the table. */
  lemma CreateThenDelete(table: BookmarkTable, body: CreateBody, freshId: string)
    requires CreateBookmark(table, body, freshId).Ok?
    ensures DeleteBookmark(CreateBookmark(table, body, freshId).value.table, freshId) == Ok(table)
  {
    var t := CreateBookmark(table, body, freshId).value.table;
    assert t - {freshId} == table;
  }
}

=== FILE: client_api.dfy ===
/** The cover-path rewrite the browser client applies to the manga list and to
    the reading history: a cover served by the backend's `/covers/` folder is
    reached through the `/api/manga` prefix. */
module ClientApi {
  import opened Js

  const ApiUrl := "/api"
  const CoversPrefix := "/covers/"

  /** The prefix a rewritten cover path gets: `${API_URL}/manga`. */
  const MangaPrefix := ApiUrl + "/manga"

  datatype Manga = Manga(
    id: string,
    title: string,
    path: string,
    coverImage: Option<string>,
    createdAt: string,
    updatedAt: string)

  /** A history row; `manga` is None when the row came without its manga. */
  datatype History = History(
    id: string,
    mangaId: string,
    chapterPath: string,
    pageNumber: int,
    timestamp: string,
    manga: Option<Manga>)

  /** `coverImage?.startsWith('/covers/') ? API_URL + '/manga' + coverImage : coverImage`. */
  function RewriteCover(cover: Option<string>): (r: Option<string>)
    ensures cover.Some? && StartsWith(cover.value, CoversPrefix) ==> r == Some(MangaPrefix + cover.value)
    ensures !(cover.Some? && StartsWith(cover.value, CoversPrefix)) ==> r == cover
    ensures r.None? <==> cover.None?
    ensures r.Some? ==> !StartsWith(r.value, CoversPrefix)
  {
    if cover.Some? && StartsWith(cover.value, CoversPrefix) then
      var moved := MangaPrefix + cover.value;
      assert moved[1] != CoversPrefix[1];
      Some(moved)
    else cover
  }

  /** A rewritten path never begins with `/covers/`, so rewriting again changes nothing. */
  lemma RewriteCoverIdempotent(cover: Option<string>)
    ensures RewriteCover(RewriteCover(cover)) == RewriteCover(cover)
  {
  }

  /** A rewritten cover is the original path under the `/api/manga` prefix, so
      stripping that prefix gives the path back. */
  lemma RewriteCoverRecoverable(cover: Option<string>)
    requires cover.Some? && StartsWith(cover.value, CoversPrefix)
    ensures var r := RewriteCover(cover).value;
      StartsWith(r, MangaPrefix + CoversPrefix) && r[|MangaPrefix|..] == cover.value
  {
    var r := RewriteCover(cover).value;
    assert r == MangaPrefix + cover.value;
    assert (MangaPrefix + cover.value)[..|MangaPrefix + CoversPrefix|] == MangaPrefix + cover.value[..|CoversPrefix|];
  }

  function WithCover(m: Manga): Manga {
    m.(coverImage := RewriteCover(m.coverImage))
  }

  /** `api.getManga()` after the response arrives. */
  function GetManga(data: seq<Manga>): (r: seq<Manga>)
    ensures |r| == |data|
    ensures forall i :: 0 <= i < |data| ==>
      && r[i].coverImage == RewriteCover(data[i].coverImage)
      && r[i].(coverImage := data[i].coverImage) == data[i]
  {
    if |data| == 0 then [] else [WithCover(data[0])] + GetManga(data[1..])
  }

  /** `api.getHistory()` after the response arrives: the nested manga gets the same rewrite. */
  function GetHistory(data: seq<History>): (r: seq<History>)
    ensures |r| == |data|
    ensures forall i :: 0 <= i < |data| ==>
      && (r[i].manga.None? <==> data[i].manga.None?)
      && (data[i].manga.Some? ==> r[i].manga.value == WithCover(data[i].manga.value))
      && r[i].(manga := data[i].manga) == data[i]
  {
    if |data| == 0 then []
    else
      var h := data[0];
      var m := if h.manga.Some? then Some(WithCover(h.manga.value)) else None;
      [h.(manga := m)] + GetHistory(data[1..])
  }

  /** Applying the manga-list rewrite to its own output changes nothing. */
  lemma {:induction false} GetMangaIdempotent(data: seq<Manga>)
    ensures GetManga(GetManga(data)) == GetManga(data)
  {
    if |data| > 0 {
      RewriteCoverIdempotent(data[0].coverImage);
      GetMangaIdempotent(data[1..]);
      assert GetManga(data)[1..] == GetManga(data[1..]);
    }
  }

  /** The history rewrite and the manga-list rewrite agree on the manga they share. */
  lemma HistoryRewritesLikeMangaList(data: seq<History>, i: int)
    requires 0 <= i < |data| && data[i].manga.Some?
    ensures GetHistory(data)[i].manga.value == GetManga([data[i].manga.value])[0]
  {
  }
}

=== FILE: http.dfy ===
/** The shape of an Express route's answer and the request-body rule the POST
    routes share. */
module Http {
  import opened Js

  /** A JSON answer with status 200, or an error status with its `error` message. */
  datatype Reply<+T> = Ok(value: T) | Fail(status: int, message: string)

  const MissingFields := "Missing required fields"

  /** `!mangaId || !chapterPath || pageNumber === undefined` is false: both
      strings are truthy and a page number was sent (0 included). */
  predicate HasRequiredFields(mangaId: Option<string>, chapterPath: Option<string>, pageNumber: Option<int>) {
    Truthy(mangaId) && Truthy(chapterPath) && pageNumber.Some?
  }
}

=== FILE: js.dfy ===
/** JavaScript value semantics that the server routes and the client code rely on:
    optional values, truthiness of optional strings, the `||` operator on them,
    `startsWith`, the relational order `<` on strings and ASCII `toLowerCase`. */
module Js {

  /** `undefined` (None) or a present value. */
  datatype Option<+T> = None | Some(value: T)

  /** An optional string is truthy when it is present and not the empty string. */
  predicate Truthy(s: Option<string>) {
    s.Some? && s.value != ""
  }

  /** `a || b` on optional strings: the first operand when it is truthy, else the second. */
  function Or(a: Option<string>, b: Option<string>): (r: Option<string>)
    ensures Truthy(r) <==> Truthy(a) || Truthy(b)
    ensures r == a || r == b
  {
    if Truthy(a) then a else b
  }

  /** `s.startsWith(prefix)`. */
  predicate StartsWith(s: string, prefix: string) {
    |prefix| <= |s| && s[..|prefix|] == prefix
  }

  /** `a < b` on strings: lexicographic order of the characters, a proper prefix
      being smaller than the string it starts. */
  predicate StrLess(a: string, b: string) {
    if |a| == 0 then |b| > 0
    else if |b| == 0 then false
    else if a[0] != b[0] then a[0] < b[0]
    else StrLess(a[1..], b[1..])
  }

  lemma {:induction false} StrLessIrreflexive(a: string)
    ensures !StrLess(a, a)
    decreases |a|
  {
    if |a| > 0 {
      StrLessIrreflexive(a[1..]);
    }
  }

  lemma {:induction false} StrLessAsymmetric(a: string, b: string)
    ensures StrLess(a, b) ==> !StrLess(b, a)
    decreases |a|
  {
    if |a| > 0 && |b| > 0 && a[0] == b[0] {
      StrLessAsymmetric(a[1..], b[1..]);
    }
  }

  lemma {:induction false} StrLessTransitive(a: string, b: string, c: string)
    requires StrLess(a, b) && StrLess(b, c)
    ensures StrLess(a, c)
    decreases |a|
  {
    if |a| > 0 && a[0] == b[0] && b[0] == c[0] {
      StrLessTransitive(a[1..], b[1..], c[1..]);
    }
  }

  lemma {:induction false} StrLessConnected(a: string, b: string)
    requires a != b
    ensures StrLess(a, b) || StrLess(b, a)
    decreases |a|
  {
    if |a| > 0 && |b| > 0 && a[0] == b[0] {
      assert a == [a[0]] + a[1..] && b == [b[0]] + b[1..];
      StrLessConnected(a[1..], b[1..]);
    }
  }

  /** `Math.min` on integers. */
  function Min(a: int, b: int): int {
    if a <= b then a else b
  }

  /** `Math.max` on integers. */
  function Max(a: int, b: int): int {
    if a >= b then a else b
  }

  /** ASCII case mapping of one character, as `toLowerCase` does for A-Z. */
  function LowerChar(c: char): char {
    if 'A' <= c <= 'Z' then (c as int + 32) as char else c
  }

  /** `s.toLowerCase()` restricted to the ASCII letters. */
  function ToLower(s: string): (r: string)
    ensures |r| == |s|
    ensures forall i :: 0 <= i < |s| ==> r[i] == LowerChar(s[i])
  {
    if |s| == 0 then "" else [LowerChar(s[0])] + ToLower(s[1..])
  }
}

=== FILE: manga.dfy ===
/** The `/api/manga` routes over directory listings: the scan that finds or
    creates one manga per sub-directory, the chapter and page filters, and the
    image content-type table. The manga table is a map from path to row. */
module MangaRoute {
  import opened Js
  import opened Http

  /** One `fs.Dirent`: its name and whether it is a file or a directory. */
  datatype DirEntry = DirEntry(name: string, isFile: bool, isDirectory: bool)

  datatype Manga = Manga(title: string, path: string, coverImage: Option<string>)

  type MangaTable = map<string, Manga>

  datatype Scanned = Scanned(table: MangaTable, listed: seq<Manga>)

  /** A chapter or page entry of a listing answer. */
  datatype Entry = Entry(name: string, path: string)

  /** A query-string value: not sent, one string, or something else (an array of repeats). */
  datatype QueryValue = Missing | Str(s: string) | NotString

  const DirPathRequired := "Directory path is required"
  const ScanFailed := "Failed to scan directory"
  const ImagePathRequired := "Image path is required"
  const ImageFailed := "Failed to load image"
  const DefaultContentType := "image/jpeg"

  const ImageExtensions := [".jpg", ".jpeg", ".png", ".gif", ".webp"]

  const ContentTypes := map[
    ".jpg" := "image/jpeg",
    ".jpeg" := "image/jpeg",
    ".png" := "image/png",
    ".gif" := "image/gif",
    ".webp" := "image/webp"]

  /** `path.join(dir, name)` for a plain file name. */
  function Join(dir: string, name: string): (r: string)
    ensures StartsWith(r, dir + "/")
  {
    dir + "/" + name
  }

  lemma JoinInjective(dir: string, a: string, b: string)
    requires Join(dir, a) == Join(dir, b)
    ensures a == b
  {
    assert a == Join(dir, a)[|dir| + 1..];
    assert b == Join(dir, b)[|dir| + 1..];
  }

  function Directories(entries: seq<DirEntry>): (r: seq<DirEntry>)
    ensures forall e :: e in r <==> e in entries && e.isDirectory
    ensures |r| <= |entries|
  {
    if |entries| == 0 then []
    else (if entries[0].isDirectory then [entries[0]] else []) + Directories(entries[1..])
  }

  /** Filtering a listing in two parts is filtering it whole: the kept entries stay
      in listing order. */
  lemma {:induction false} DirectoriesAppend(a: seq<DirEntry>, b: seq<DirEntry>)
    ensures Directories(a + b) == Directories(a) + Directories(b)
    decreases |a|
  {
    if |a| == 0 {
      assert a + b == b;
    } else {
      assert (a + b)[0] == a[0];
      assert (a + b)[1..] == a[1..] + b;
      DirectoriesAppend(a[1..], b);
    }
  }

  /** A one-entry listing keeps its entry exactly when it is a directory. */
  lemma DirectoriesOne(e: DirEntry)
    ensures Directories([e]) == if e.isDirectory then [e] else []
  {
    assert [e][1..] == [];
  }

  /** The row the scan lists for a folder: the stored row with that path, or a
      new row titled after the folder. */
  function Found(table: MangaTable, dirPath: string, name: string): Manga {
    var path := Join(dirPath, name);
    if path in table then table[path] else Manga(name, path, None)
  }

  /** The paths of the folders, in listing order. */
  function Paths(dirPath: string, dirs: seq<DirEntry>): (r: seq<string>)
    ensures |r| == |dirs|
    ensures forall i :: 0 <= i < |dirs| ==> r[i] == Join(dirPath, dirs[i].name)
  {
    if |dirs| == 0 then [] else [Join(dirPath, dirs[0].name)] + Paths(dirPath, dirs[1..])
  }

  /** Find-or-create for each directory in order, threading the table. */
  function FindOrCreateAll(dirPath: string, dirs: seq<DirEntry>, table: MangaTable): (r: Scanned)
    ensures |r.listed| == |dirs|
    ensures forall i :: 0 <= i < |dirs| ==> r.listed[i] == Found(table, dirPath, dirs[i].name)
    decreases |dirs|
  {
    if |dirs| == 0 then Scanned(table, [])
    else
      var path := Join(dirPath, dirs[0].name);
      var manga := Found(table, dirPath, dirs[0].name);
      var next := table[path := manga];
      var rest := FindOrCreateAll(dirPath, dirs[1..], next);
      forall i | 1 <= i < |dirs| ensures rest.listed[i - 1] == Found(table, dirPath, dirs[i].name) {
        FoundAfterInsert(table, dirPath, dirs[0].name, dirs[i].name);
      }
      Scanned(rest.table, [manga] + rest.listed)
  }

  /** Storing a folder's row does not change what any folder of the same scan finds. */
  lemma FoundAfterInsert(table: MangaTable, dirPath: string, first: string, name: string)
    ensures Found(table[Join(dirPath, first) := Found(table, dirPath, first)], dirPath, name) == Found(table, dirPath, name)
  {
    if Join(dirPath, name) == Join(dirPath, first) {
      JoinInjective(dirPath, name, first);
    }
  }

  /** A scan adds exactly the folder paths to the table's keys. */
  lemma {:induction false} ScanKeys(dirPath: string, dirs: seq<DirEntry>, table: MangaTable)
    ensures forall p :: p in FindOrCreateAll(dirPath, dirs, table).table <==> p in table || p in Paths(dirPath, dirs)
    decreases |dirs|
  {
    if |dirs| > 0 {
      var path := Join(dirPath, dirs[0].name);
      ScanKeys(dirPath, dirs[1..], table[path := Found(table, dirPath, dirs[0].name)]);
      assert Paths(dirPath, dirs) == [path] + Paths(dirPath, dirs[1..]);
    }
  }

  /** A scan leaves every stored row as it was. */
  lemma {:induction false} ScanPreserves(dirPath: string, dirs: seq<DirEntry>, table: MangaTable)
    ensures var t := FindOrCreateAll(dirPath, dirs, table).table;
      forall p :: p in table ==> p in t && t[p] == table[p]
    decreases |dirs|
  {
    if |dirs| > 0 {
      var path := Join(dirPath, dirs[0].name);
      ScanPreserves(dirPath, dirs[1..], table[path := Found(table, dirPath, dirs[0].name)]);
    }
  }

  /** After a scan every folder's path holds the row listed for it. */
  lemma {:induction false} ScanStoresListed(dirPath: string, dirs: seq<DirEntry>, table: MangaTable)
    ensures var r := FindOrCreateAll(dirPath, dirs, table);
      forall i :: 0 <= i < |dirs| ==> Paths(dirPath, dirs)[i] in r.table && r.table[Paths(dirPath, dirs)[i]] == r.listed[i]
    decreases |dirs|
  {
    if |dirs| > 0 {
      var path := Join(dirPath, dirs[0].name);
      var next := table[path := Found(table, dirPath, dirs[0].name)];
      ScanPreserves(dirPath, dirs[1..], next);
      ScanStoresListed(dirPath, dirs[1..], next);
      var r := FindOrCreateAll(dirPath, dirs, table);
      var rest := FindOrCreateAll(dirPath, dirs[1..], next);
      forall i | 1 <= i < |dirs|
        ensures Paths(dirPath, dirs)[i] in r.table && r.table[Paths(dirPath, dirs)[i]] == r.listed[i]
      {
        assert r.listed[i] == rest.listed[i - 1];
        assert Paths(dirPath, dirs)[i] == Paths(dirPath, dirs[1..])[i - 1];
      }
    }
  }

  /** `POST /api/manga/scan` with body `{ dirPath }`; `listing` is None when reading the directory fails. */
  function Scan(dirPath: Option<string>, listing: Option<seq<DirEntry>>, table: MangaTable): (r: Reply<Scanned>)
    ensures !Truthy(dirPath) ==> r == Fail(400, DirPathRequired)
    ensures Truthy(dirPath) && listing.None? ==> r == Fail(500, ScanFailed)
    ensures r.Ok? <==> Truthy(dirPath) && listing.Some?
    ensures r.Ok? ==> var dirs := Directories(listing.value);
      && |r.value.listed| == |dirs|
      && (forall i :: 0 <= i < |dirs| ==> r.value.listed[i] == Found(table, dirPath.value, dirs[i].name))
  {
    if !Truthy(dirPath) then Fail(400, DirPathRequired)
    else if listing.None? then Fail(500, ScanFailed)
    else Ok(FindOrCreateAll(dirPath.value, Directories(listing.value), table))
  }

  /** The table a scan leaves behind: rows already stored are unchanged and every
      listed folder has its row under its path. */
  lemma ScanKeepsStoredRows(dirPath: Option<string>, listing: Option<seq<DirEntry>>, table: MangaTable)
    requires Scan(dirPath, listing, table).Ok?
    ensures var r := Scan(dirPath, listing, table).value;
      && (forall p :: p in table ==> p in r.table && r.table[p] == table[p])
      && (forall p :: p in r.table && p !in table ==> p in Paths(dirPath.value, Directories(listing.value)))
      && (forall i :: 0 <= i < |r.listed| ==> var p := Join(dirPath.value, Directories(listing.value)[i].name);
            p in r.table && r.table[p] == r.listed[i])
  {
    var dirs := Directories(listing.value);
    ScanKeys(dirPath.value, dirs, table);
    ScanPreserves(dirPath.value, dirs, table);
    ScanStoresListed(dirPath.value, dirs, table);
  }

  /** Scanning the same listing again creates nothing and lists the same rows. */
  lemma ScanIdempotent(dirPath: Option<string>, listing: Option<seq<DirEntry>>, table: MangaTable)
    requires Scan(dirPath, listing, table).Ok?
    ensures var first := Scan(dirPath, listing, table).value;
      Scan(dirPath, listing, first.table) == Ok(first)
  {
    var dirs := Directories(listing.value);
    RescanLists(dirPath.value, dirs, table);
    RescanKeepsTable(dirPath.value, dirs, table);
  }

  lemma RescanLists(dirPath: string, dirs: seq<DirEntry>, table: MangaTable)
    ensures var first := FindOrCreateAll(dirPath, dirs, table);
      FindOrCreateAll(dirPath, dirs, first.table).listed == first.listed
  {
    var first := FindOrCreateAll(dirPath, dirs, table);
    var second := FindOrCreateAll(dirPath, dirs, first.table);
    ScanStoresListed(dirPath, dirs, table);
    forall i | 0 <= i < |dirs| ensures second.listed[i] == first.listed[i] {
      assert Paths(dirPath, dirs)[i] == Join(dirPath, dirs[i].name);
    }
  }

  lemma RescanKeepsTable(dirPath: string, dirs: seq<DirEntry>, table: MangaTable)
    ensures var first := FindOrCreateAll(dirPath, dirs, table);
      FindOrCreateAll(dirPath, dirs, first.table).table == first.table
  {
    var first := FindOrCreateAll(dirPath, dirs, table);
    ScanKeys(dirPath, dirs, table);
    ScanKeys(dirPath, dirs, first.table);
    ScanPreserves(dirPath, dirs, first.table);
  }

  // ---------------------------------------------------------- chapters and pages

  /** `path.extname(p)`: the last component's text from its last dot on, or empty
      when that component has no dot or its only dot leads it. */
  function Extension(p: string): (r: string)
    ensures r != "" ==> r[0] == '.' && |r| < |p| && r == p[|p| - |r|..]
  {
    var k := LastDot(p, |p|);
    if k <= 0 || p[k - 1] == '/' then "" else p[k..]
  }

  /** The position of the last '.' in `p[..end]` after its last '/', or -1. */
  function LastDot(p: string, end: nat): (k: int)
    requires end <= |p|
    ensures -1 <= k < end
    ensures k >= 0 ==> p[k] == '.' && forall j :: k < j < end ==> p[j] != '.' && p[j] != '/'
  {
    if end == 0 || p[end - 1] == '/' then -1
    else if p[end - 1] == '.' then end - 1
    else LastDot(p, end - 1)
  }

  /** `p[k]` is a dot of the last path component that does not lead it. */
  predicate ExtensionDot(p: string, k: int) {
    0 < k < |p| && p[k] == '.' && p[k - 1] != '/' && forall j :: k <= j < |p| ==> p[j] != '/'
  }

  /** The extension starts at the last dot of the last path component: nothing after
      it is a dot or a '/'. It is present exactly when some dot of the last component
      does not lead it. */
  lemma ExtensionShape(p: string)
    ensures Extension(p) != "" ==>
      forall j :: 0 < j < |Extension(p)| ==> Extension(p)[j] != '.' && Extension(p)[j] != '/'
    ensures Extension(p) != "" <==> exists k :: ExtensionDot(p, k)
  {
    var k := LastDot(p, |p|);
    ExtensionAt(p, k);
    if Extension(p) != "" {
      assert ExtensionDot(p, k);
    }
    forall d | ExtensionDot(p, d)
      ensures Extension(p) != ""
    {
      LastDotFinds(p, |p|, d);
    }
  }

  /** A dot with no '/' after it, up to `end`, is at or before the last dot found. */
  lemma {:induction false} LastDotFinds(p: string, end: nat, d: nat)
    requires d < end <= |p| && p[d] == '.'
    requires forall j :: d <= j < end ==> p[j] != '/'
    ensures LastDot(p, end) >= d
    decreases end
  {
    if end - 1 != d && p[end - 1] != '.' {
      LastDotFinds(p, end - 1, d);
    }
  }

  predicate IsImageName(name: string) {
    ToLower(Extension(name)) in ImageExtensions
  }

  lemma TailMembers(entries: seq<DirEntry>)
    requires |entries| > 0
    ensures forall e :: e in entries <==> e == entries[0] || e in entries[1..]
  {
    assert entries == [entries[0]] + entries[1..];
  }

  /** `GET /api/manga/:id/chapters`, before sorting: every sub-directory of the manga folder. */
  function Chapters(mangaPath: string, entries: seq<DirEntry>): (r: seq<Entry>)
    ensures forall c :: c in r <==> exists e :: e in entries && e.isDirectory && c == Entry(e.name, Join(mangaPath, e.name))
  {
    if |entries| == 0 then []
    else
      var rest := Chapters(mangaPath, entries[1..]);
      TailMembers(entries);
      (if entries[0].isDirectory then [Entry(entries[0].name, Join(mangaPath, entries[0].name))] else []) + rest
  }

  /** The chapter filter keeps listing order: filtering two parts is filtering the whole. */
  lemma {:induction false} ChaptersAppend(mangaPath: string, a: seq<DirEntry>, b: seq<DirEntry>)
    ensures Chapters(mangaPath, a + b) == Chapters(mangaPath, a) + Chapters(mangaPath, b)
    decreases |a|
  {
    if |a| == 0 {
      assert a + b == b;
    } else {
      assert (a + b)[0] == a[0];
      assert (a + b)[1..] == a[1..] + b;
      ChaptersAppend(mangaPath, a[1..], b);
    }
  }

  /** The chapters are the scan's directories, each paired with its joined path. */
  lemma {:induction false} ChaptersAreDirectories(mangaPath: string, entries: seq<DirEntry>)
    ensures var c := Chapters(mangaPath, entries); var d := Directories(entries);
      |c| == |d| && forall i :: 0 <= i < |d| ==> c[i] == Entry(d[i].name, Join(mangaPath, d[i].name))
  {
    if |entries| > 0 {
      ChaptersAreDirectories(mangaPath, entries[1..]);
    }
  }

  /** `GET /api/manga/:id/chapters/:chapterPath/pages`, before sorting: every file
      whose lower-cased extension is an image extension. */
  function Pages(chapterPath: string, entries: seq<DirEntry>): (r: seq<Entry>)
    ensures forall p :: p in r <==> exists e :: e in entries && e.isFile && IsImageName(e.name)
                                                 && p == Entry(e.name, Join(chapterPath, e.name))
  {
    if |entries| == 0 then []
    else
      var rest := Pages(chapterPath, entries[1..]);
      TailMembers(entries);
      PageOf(chapterPath, entries[0]) + rest
  }

  /** The one page an entry contributes, if it is an image file. */
  function PageOf(chapterPath: string, e: DirEntry): seq<Entry> {
    if e.isFile && IsImageName(e.name) then [Entry(e.name, Join(chapterPath, e.name))] else []
  }

  /** The page filter keeps listing order: filtering two parts is filtering the whole. */
  lemma {:induction false} PagesAppend(chapterPath: string, a: seq<DirEntry>, b: seq<DirEntry>)
    ensures Pages(chapterPath, a + b) == Pages(chapterPath, a) + Pages(chapterPath, b)
    decreases |a|
  {
    if |a| == 0 {
      assert a + b == b;
    } else {
      assert (a + b)[0] == a[0];
      assert (a + b)[1..] == a[1..] + b;
      PagesAppend(chapterPath, a[1..], b);
      var head, tail, rest := PageOf(chapterPath, a[0]), Pages(chapterPath, a[1..]), Pages(chapterPath, b);
      assert head + (tail + rest) == (head + tail) + rest;
    }
  }

  /** A one-entry listing gives one page exactly when the entry is an image file,
      so with `PagesAppend` every image file is listed once, in listing order. */
  lemma PagesOne(chapterPath: string, e: DirEntry)
    ensures Pages(chapterPath, [e]) == if e.isFile && IsImageName(e.name) then [Entry(e.name, Join(chapterPath, e.name))] else []
  {
    assert [e][1..] == [];
  }

  /** `GET /api/manga/image?imagePath=...`: the Content-Type sent with the file;
      `readable` says whether reading the file succeeded. */
  function ImageContentType(imagePath: QueryValue, readable: bool): (r: Reply<string>)
    ensures r == Fail(400, ImagePathRequired) <==> !(imagePath.Str? && imagePath.s != "")
    ensures imagePath.Str? && imagePath.s != "" && !readable ==> r == Fail(500, ImageFailed)
    ensures imagePath.Str? && imagePath.s != "" && readable ==> r.Ok?
    ensures r.Ok? ==> r.value in {"image/jpeg", "image/png", "image/gif", "image/webp"}
    ensures r.Ok? ==> var ext := ToLower(Extension(imagePath.s));
      (ext in ContentTypes ==> r.value == ContentTypes[ext]) && (ext !in ContentTypes ==> r.value == DefaultContentType)
  {
    if !(imagePath.Str? && imagePath.s != "") then Fail(400, ImagePathRequired)
    else if !readable then Fail(500, ImageFailed)
    else
      var ext := ToLower(Extension(imagePath.s));
      ContentTypeValues();
      Ok(if ext in ContentTypes then ContentTypes[ext] else DefaultContentType)
  }

  lemma ContentTypeValues()
    ensures forall ext :: ext in ContentTypes ==> ContentTypes[ext] in {"image/jpeg", "image/png", "image/gif", "image/webp"}
  {
  }

  /** The page filter and the content-type table list the same extensions. */
  lemma PageExtensionsAreTyped(ext: string)
    ensures ext in ImageExtensions <==> ext in ContentTypes
  {
  }

  /** Every image file of a chapter is listed as a page, and the page is served
      with the type its extension names, never the fallback guess. */
  lemma ListedPagesHaveTheirOwnType(chapterPath: string, entries: seq<DirEntry>, e: DirEntry)
    requires e in entries && e.isFile && IsImageName(e.name)
    ensures var p := Entry(e.name, Join(chapterPath, e.name));
      && p in Pages(chapterPath, entries)
      && ImageContentType(Str(p.path), true) == Ok(ContentTypes[ToLower(Extension(p.name))])
  {
    ImageNameIsTyped(chapterPath, e.name);
  }

  /** An image file inside a directory is served with its own extension's type. */
  lemma ImageNameIsTyped(dir: string, name: string)
    requires IsImageName(name)
    ensures ImageContentType(Str(Join(dir, name)), true) == Ok(ContentTypes[ToLower(Extension(name))])
  {
    ExtensionOfJoin(dir, name);
    PageExtensionsAreTyped(ToLower(Extension(name)));
  }

  /** The extension of a joined path is the extension of the name joined on. */
  lemma ExtensionOfJoin(dir: string, name: string)
    ensures Extension(Join(dir, name)) == Extension(name)
  {
    var prefix := dir + "/";
    assert Join(dir, name) == prefix + name;
    ExtensionAfterSlash(prefix, name);
  }

  lemma ExtensionAfterSlash(prefix: string, name: string)
    requires |prefix| > 0 && prefix[|prefix| - 1] == '/'
    ensures Extension(prefix + name) == Extension(name)
  {
    var s := prefix + name;
    LastDotAfterSlash(prefix, name, |name|);
    var k := LastDot(name, |name|);
    var ks := LastDot(s, |s|);
    assert ks == (if k >= 0 then |prefix| + k else -1);
    ExtensionAt(s, ks);
    ExtensionAt(name, k);
    if k > 0 {
      assert s[ks - 1] == name[k - 1];
      SliceAfterPrefix(prefix, name, k);
    } else if k == 0 {
      assert s[ks - 1] == '/';
    }
  }

  lemma ExtensionAt(p: string, k: int)
    requires k == LastDot(p, |p|)
    ensures Extension(p) == if k <= 0 || p[k - 1] == '/' then "" else p[k..]
  {
  }

  lemma SliceAfterPrefix(prefix: string, name: string, k: nat)
    requires k <= |name|
    ensures (prefix + name)[|prefix| + k..] == name[k..]
  {
  }

  /** Behind a '/', the search for the last dot never leaves the name. */
  lemma {:induction false} LastDotAfterSlash(prefix: string, name: string, end: nat)
    requires |prefix| > 0 && prefix[|prefix| - 1] == '/' && end <= |name|
    ensures var k := LastDot(name, end);
      LastDot(prefix + name, |prefix| + end) == if k >= 0 then |prefix| + k else -1
    decreases end
  {
    var s := prefix + name;
    if end == 0 {
      assert s[|prefix| - 1] == '/';
    } else {
      assert s[|prefix| + end - 1] == name[end - 1];
      if name[end - 1] != '.' && name[end - 1] != '/' {
        LastDotAfterSlash(prefix, name, end - 1);
      }
    }
  }
}

=== FILE: mangadex.dfy ===
/** Metadata search: record extraction from the MangaDex and Kitsu search
    answers, and the MangaDex-first search with Kitsu fallback and merge. */
module MangaDex {
  import opened Js

  const CoverUploadsBase := "https://uploads.mangadex.org/covers/"
  const CoverArt := "cover_art"

  /** What the service hands back to its caller for one title. */
  datatype Metadata = Metadata(
    title: string,
    coverImage: Option<string>,
    synopsis: Option<string>,
    rating: Option<string>,
    status: Option<string>)

  /** What one search request produced: an exception (transport failure,
      HTTP status of 400 or more, a body that is not JSON, a body whose `data`
      cannot be read) or a parsed body whose `data` array may be missing. */
  datatype SearchAnswer<T> = Thrown | Body(data: Option<seq<T>>)

  /** One entry of a MangaDex `attributes.title` object, in key order. */
  datatype TitleEntry = TitleEntry(lang: string, text: Option<string>)

  /** One element of a MangaDex `relationships` array; `fileName` is `attributes?.fileName`. */
  datatype Relationship = Relationship(kind: string, id: string, fileName: Option<string>)

  datatype DexManga = DexManga(
    id: string,
    titles: seq<TitleEntry>,
    descriptionEn: Option<string>,
    status: Option<string>,
    relationships: Option<seq<Relationship>>)

  datatype PosterImage = PosterImage(small: Option<string>, medium: Option<string>, large: Option<string>, original: Option<string>)
  datatype CoverImage = CoverImage(small: Option<string>, large: Option<string>, original: Option<string>)

  datatype KitsuManga = KitsuManga(
    id: string,
    canonicalTitle: string,
    synopsis: Option<string>,
    posterImage: Option<PosterImage>,
    coverImage: Option<CoverImage>,
    averageRating: Option<string>,
    status: Option<string>)

  /** The first element of a search answer, or None when the request threw or
      `data` is missing or empty. */
  function FirstResult<T>(answer: SearchAnswer<T>): (r: Option<T>)
    ensures r.None? <==> answer.Thrown? || answer.data.None? || |answer.data.value| == 0
    ensures r.Some? ==> r.value == answer.data.value[0]
  {
    match answer
    case Thrown => None
    case Body(None) => None
    case Body(Some(items)) => if |items| == 0 then None else Some(items[0])
  }

  // ---------------------------------------------------------------- Kitsu

  /** `posterImage?.large || posterImage?.medium`. */
  function KitsuCover(m: KitsuManga): Option<string> {
    match m.posterImage
    case None => None
    case Some(p) => Or(p.large, p.medium)
  }

  function KitsuRecord(m: KitsuManga): Metadata {
    Metadata(m.canonicalTitle, KitsuCover(m), m.synopsis, m.averageRating, m.status)
  }

  /** `searchMangaKitsu`: the first result's fields, verbatim; null on any failure. */
  function SearchKitsu(answer: SearchAnswer<KitsuManga>): (r: Option<Metadata>)
    ensures r.None? <==> FirstResult(answer).None?
    ensures r.Some? ==> var m := FirstResult(answer).value;
      && r.value.title == m.canonicalTitle
      && r.value.synopsis == m.synopsis
      && r.value.rating == m.averageRating
      && r.value.status == m.status
    ensures r.Some? ==> var m := FirstResult(answer).value;
      && (m.posterImage.Some? && Truthy(m.posterImage.value.large) ==> r.value.coverImage == m.posterImage.value.large)
      && (m.posterImage.Some? && !Truthy(m.posterImage.value.large) ==> r.value.coverImage == m.posterImage.value.medium)
      && (m.posterImage.None? ==> r.value.coverImage.None?)
  {
    match FirstResult(answer)
    case None => None
    case Some(m) => Some(KitsuRecord(m))
  }

  // ------------------------------------------------------------- MangaDex

  /** `attributes.title[lang]`. */
  function TitleIn(titles: seq<TitleEntry>, lang: string): (r: Option<string>)
    ensures r.Some? ==> exists i :: 0 <= i < |titles| && titles[i].lang == lang && titles[i].text == r
  {
    if |titles| == 0 then None
    else if titles[0].lang == lang then titles[0].text
    else TitleIn(titles[1..], lang)
  }

  /** `Object.values(attributes.title)[0]`. */
  function FirstTitle(titles: seq<TitleEntry>): Option<string> {
    if |titles| == 0 then None else titles[0].text
  }

  /** `title.en || title.ja || Object.values(title)[0] || query`. */
  function DexTitle(m: DexManga, query: string): (r: string)
    ensures Truthy(TitleIn(m.titles, "en")) ==> Some(r) == TitleIn(m.titles, "en")
    ensures !Truthy(TitleIn(m.titles, "en")) && Truthy(TitleIn(m.titles, "ja")) ==> Some(r) == TitleIn(m.titles, "ja")
    ensures !Truthy(TitleIn(m.titles, "en")) && !Truthy(TitleIn(m.titles, "ja")) && Truthy(FirstTitle(m.titles))
            ==> Some(r) == FirstTitle(m.titles)
    ensures !Truthy(TitleIn(m.titles, "en")) && !Truthy(TitleIn(m.titles, "ja")) && !Truthy(FirstTitle(m.titles))
            ==> r == query
    ensures query != "" ==> r != ""
  {
    var chosen := Or(Or(TitleIn(m.titles, "en"), TitleIn(m.titles, "ja")), FirstTitle(m.titles));
    if Truthy(chosen) then chosen.value else query
  }

  /** `relationships.find(rel => rel.type === 'cover_art')`. */
  function FindCoverArt(rels: seq<Relationship>): (r: Option<Relationship>)
    ensures r.None? <==> forall i :: 0 <= i < |rels| ==> rels[i].kind != CoverArt
    ensures r.Some? ==> exists i :: 0 <= i < |rels| && rels[i] == r.value && rels[i].kind == CoverArt
                                    && forall j :: 0 <= j < i ==> rels[j].kind != CoverArt
  {
    if |rels| == 0 then None
    else if rels[0].kind == CoverArt then Some(rels[0])
    else
      var r := FindCoverArt(rels[1..]);
      assert r.Some? ==> r.value in rels[1..];
      r
  }

  /** The cover URL built from the first `cover_art` relationship, if it has a truthy file name. */
  function DexCover(m: DexManga): (r: Option<string>)
    ensures r.Some? <==> m.relationships.Some? && FindCoverArt(m.relationships.value).Some?
                         && Truthy(FindCoverArt(m.relationships.value).value.fileName)
    ensures r.Some? ==> r.value == CoverUploadsBase + m.id + "/" + FindCoverArt(m.relationships.value).value.fileName.value
  {
    match m.relationships
    case None => None
    case Some(rels) =>
      match FindCoverArt(rels)
      case None => None
      case Some(rel) =>
        if Truthy(rel.fileName) then Some(CoverUploadsBase + m.id + "/" + rel.fileName.value) else None
  }

  function DexRecord(m: DexManga, query: string): Metadata {
    Metadata(DexTitle(m, query), DexCover(m), m.descriptionEn, None, m.status)
  }

  /** `searchMangaMangaDex`: a record built from the first result; null on any failure. */
  function SearchMangaDex(query: string, answer: SearchAnswer<DexManga>): (r: Option<Metadata>)
    ensures r.None? <==> FirstResult(answer).None?
    ensures r.Some? ==> var m := FirstResult(answer).value;
      && r.value.title == DexTitle(m, query)
      && r.value.coverImage == DexCover(m)
      && r.value.synopsis == m.descriptionEn
      && r.value.rating.None?
      && r.value.status == m.status
    ensures r.Some? && query != "" ==> r.value.title != ""
  {
    match FirstResult(answer)
    case None => None
    case Some(m) => Some(DexRecord(m, query))
  }

  // ---------------------------------------------------------- orchestrator

  datatype Provider = MangaDexApi | KitsuApi

  /** The answer of `searchManga` and the providers it asked, in order. */
  datatype Resolution = Resolution(metadata: Option<Metadata>, consulted: seq<Provider>)

  /** `!metadata || !metadata.coverImage`: the MangaDex answer is missing or has no cover. */
  predicate NeedsFallback(m: Option<Metadata>) {
    m.None? || !Truthy(m.value.coverImage)
  }

  /** The MangaDex record with its falsy cover and synopsis filled from Kitsu. */
  function Merge(primary: Metadata, fallback: Metadata): (r: Metadata)
    ensures r.title == primary.title && r.status == primary.status && r.rating == primary.rating
    ensures Truthy(primary.coverImage) ==> r.coverImage == primary.coverImage
    ensures !Truthy(primary.coverImage) ==> r.coverImage == fallback.coverImage
    ensures Truthy(primary.synopsis) ==> r.synopsis == primary.synopsis
    ensures !Truthy(primary.synopsis) ==> r.synopsis == fallback.synopsis
  {
    primary.(coverImage := Or(primary.coverImage, fallback.coverImage),
             synopsis := Or(primary.synopsis, fallback.synopsis))
  }

  /** `searchManga(title)` with the two provider searches as parameters. */
  function SearchManga(title: string, dex: string -> Option<Metadata>, kitsu: string -> Option<Metadata>): (r: Resolution)
    ensures KitsuApi in r.consulted <==> NeedsFallback(dex(title))
    ensures r.consulted == if NeedsFallback(dex(title)) then [MangaDexApi, KitsuApi] else [MangaDexApi]
    ensures !NeedsFallback(dex(title)) ==> r.metadata == dex(title)
    ensures dex(title).None? ==> r.metadata == kitsu(title)
    ensures dex(title).Some? && kitsu(title).None? ==> r.metadata == dex(title)
    ensures NeedsFallback(dex(title)) && dex(title).Some? && kitsu(title).Some? ==>
      r.metadata == Some(Merge(dex(title).value, kitsu(title).value))
  {
    var primary := dex(title);
    if !NeedsFallback(primary) then
      Resolution(primary, [MangaDexApi])
    else
      var secondary := kitsu(title);
      var merged :=
        if secondary.None? then primary
        else if primary.None? then secondary
        else Some(Merge(primary.value, secondary.value));
      Resolution(merged, [MangaDexApi, KitsuApi])
  }

  /** The search finds a record exactly when one of the providers does. */
  lemma SearchFindsIffAProviderFinds(title: string, dex: string -> Option<Metadata>, kitsu: string -> Option<Metadata>)
    ensures SearchManga(title, dex, kitsu).metadata.Some? <==> dex(title).Some? || kitsu(title).Some?
  {
  }

  /** The answer has a cover exactly when MangaDex or Kitsu has one. */
  lemma SearchCoverIffAProviderHasCover(title: string, dex: string -> Option<Metadata>, kitsu: string -> Option<Metadata>)
    ensures var r := SearchManga(title, dex, kitsu).metadata;
      r.Some? && Truthy(r.value.coverImage)
      <==> (dex(title).Some? && Truthy(dex(title).value.coverImage))
           || (kitsu(title).Some? && Truthy(kitsu(title).value.coverImage))
  {
  }

  /** Title, status and rating are MangaDex's whenever MangaDex answered. */
  lemma SearchKeepsMangaDexIdentity(title: string, dex: string -> Option<Metadata>, kitsu: string -> Option<Metadata>)
    requires dex(title).Some?
    ensures var r := SearchManga(title, dex, kitsu).metadata;
      && r.Some?
      && r.value.title == dex(title).value.title
      && r.value.status == dex(title).value.status
      && r.value.rating == dex(title).value.rating
  {
  }

  /** A MangaDex answer's cover, when present, is the uploads URL of that manga. */
  lemma DexCoverIsUploadsUrl(query: string, answer: SearchAnswer<DexManga>)
    requires SearchMangaDex(query, answer).Some?
    requires SearchMangaDex(query, answer).value.coverImage.Some?
    ensures exists file :: (file != "" &&
      SearchMangaDex(query, answer).value.coverImage.value
        == CoverUploadsBase + FirstResult(answer).value.id + "/" + file)
  {
    var m := FirstResult(answer).value;
    var file := FindCoverArt(m.relationships.value).value.fileName.value;
    assert file != "";
  }

  /** Only `data[0]` is read: later results never change the answer. */
  lemma {:induction false} OnlyFirstResultMatters<T>(first: T, rest: seq<T>)
    ensures FirstResult(Body(Some([first] + rest))) == FirstResult(Body(Some([first])))
  {
    assert ([first] + rest)[0] == first;
  }

  /** Kitsu's `coverImage` attribute is never consulted. */
  lemma KitsuIgnoresCoverImageAttribute(m: KitsuManga, other: Option<CoverImage>)
    ensures KitsuRecord(m.(coverImage := other)) == KitsuRecord(m)
  {
  }
}

=== FILE: pagination.dfy ===
/** `getPagination` and `buildPaginatedResponse`: query-parameter clamping and
    the page metadata of a listing. */
module Pagination {
  import opened Js

  const DefaultPageSize := 50
  const MaxPageSize := 200

  /** A query parameter after `Number(...)`: not sent, not a finite number
      (NaN or an infinity), or a finite number. */
  datatype QueryNumber = Absent | NonFinite | Finite(value: real)

  datatype Options = Options(defaultPageSize: Option<int>, maxPageSize: Option<int>)

  datatype Params = Params(skip: int, take: int, page: int, pageSize: int)

  datatype PageInfo = PageInfo(
    currentPage: int,
    pageSize: int,
    totalPages: int,
    totalItems: int,
    hasNext: bool,
    hasPrev: bool)

  datatype Paginated<T> = Paginated(data: seq<T>, pagination: PageInfo)

  /** `Number(raw ?? fallback)`. */
  function OrDefault(raw: QueryNumber, fallback: int): QueryNumber {
    if raw.Absent? then Finite(fallback as real) else raw
  }

  function EffectivePageSize(pageSize: QueryNumber, options: Options): QueryNumber {
    OrDefault(pageSize, if options.defaultPageSize.Some? then options.defaultPageSize.value else DefaultPageSize)
  }

  function EffectiveMax(options: Options): int {
    if options.maxPageSize.Some? then options.maxPageSize.value else MaxPageSize
  }

  /** `getPagination(query, options)` for the two parameters `page` and `pageSize`. */
  function GetPagination(page: QueryNumber, pageSize: QueryNumber, options: Options): (r: Option<Params>)
    ensures r.None? <==> (page.Absent? && pageSize.Absent?) || page.NonFinite? || pageSize.NonFinite?
    ensures r.Some? ==> r.value.take == r.value.pageSize && r.value.skip == (r.value.page - 1) * r.value.pageSize
    ensures r.Some? ==> r.value.page >= 1
    ensures r.Some? ==> var p := OrDefault(page, 1).value;
      (r.value.page == 1 && p < 2.0) || (r.value.page as real <= p < r.value.page as real + 1.0)
    ensures r.Some? ==> r.value.pageSize <= EffectiveMax(options)
    ensures r.Some? && EffectiveMax(options) >= 1 ==> var s := EffectivePageSize(pageSize, options).value;
      && 1 <= r.value.pageSize
      && ((r.value.pageSize == EffectiveMax(options) && s >= EffectiveMax(options) as real)
          || (r.value.pageSize == 1 && s < 2.0)
          || (r.value.pageSize as real <= s < r.value.pageSize as real + 1.0))
  {
    if page.Absent? && pageSize.Absent? then None
    else
      var p := OrDefault(page, 1);
      var s := EffectivePageSize(pageSize, options);
      if p.NonFinite? || s.NonFinite? then None
      else
        var safePage := Max(1, p.value.Floor);
        var safePageSize := Min(EffectiveMax(options), Max(1, s.value.Floor));
        Some(Params((safePage - 1) * safePageSize, safePageSize, safePage, safePageSize))
  }

  /** `Math.ceil(total / size)` for a positive total and size. */
  function CeilDiv(total: int, size: int): (r: int)
    requires total > 0 && size > 0
    ensures (r - 1) * size < total <= r * size
    ensures r >= 1
  {
    (total + size - 1) / size
  }

  /** `buildPaginatedResponse(data, totalItems, page, pageSize)`. */
  function BuildPaginatedResponse<T>(data: seq<T>, totalItems: int, page: int, pageSize: int): (r: Paginated<T>)
    ensures r.data == data && r.pagination.totalItems == totalItems
    ensures r.pagination.pageSize >= 1 && (pageSize >= 1 ==> r.pagination.pageSize == pageSize)
    ensures pageSize < 1 ==> r.pagination.pageSize == 1
    ensures totalItems <= 0 ==> r.pagination.totalPages == 0
    ensures totalItems > 0 ==> r.pagination.totalPages == CeilDiv(totalItems, r.pagination.pageSize)
    ensures totalItems > 0 ==> var n := r.pagination.totalPages; var s := r.pagination.pageSize;
      n >= 1 && (n - 1) * s < totalItems <= n * s
    ensures r.pagination.totalPages == 0 ==> r.pagination.currentPage == 0
    ensures r.pagination.totalPages > 0 ==> 1 <= r.pagination.currentPage <= r.pagination.totalPages
    ensures 1 <= page <= r.pagination.totalPages ==> r.pagination.currentPage == page
    ensures r.pagination.totalPages > 0 && page > r.pagination.totalPages ==> r.pagination.currentPage == r.pagination.totalPages
    ensures r.pagination.totalPages > 0 && page < 1 ==> r.pagination.currentPage == 1
    ensures r.pagination.hasNext <==> r.pagination.currentPage < r.pagination.totalPages
    ensures r.pagination.hasPrev <==> r.pagination.currentPage > 1
  {
    var safePageSize := Max(1, pageSize);
    var totalPages := if totalItems > 0 then CeilDiv(totalItems, safePageSize) else 0;
    var safePage := if totalPages > 0 then Max(1, Min(page, totalPages)) else 0;
    Paginated(data, PageInfo(safePage, safePageSize, totalPages, totalItems, safePage < totalPages, safePage > 1))
  }

  /** An empty dataset has no pages and neither a next nor a previous one. */
  lemma EmptyListing<T>(data: seq<T>, page: int, pageSize: int)
    ensures var info := BuildPaginatedResponse(data, 0, page, pageSize).pagination;
      info.totalPages == 0 && info.currentPage == 0 && !info.hasNext && !info.hasPrev
  {
  }

  /** The window `[skip, skip + take)` holds exactly the items whose page, counted
      from 1, is `page`. */
  lemma WindowIsThePage(page: QueryNumber, pageSize: QueryNumber, options: Options, i: int)
    requires GetPagination(page, pageSize, options).Some?
    requires EffectiveMax(options) >= 1 && i >= 0
    ensures var p := GetPagination(page, pageSize, options).value;
      p.skip <= i < p.skip + p.take <==> i / p.take == p.page - 1
  {
    var p := GetPagination(page, pageSize, options).value;
    DivWindow(i, p.take, p.page - 1);
  }

  lemma DivWindow(i: int, size: int, q: int)
    requires size >= 1 && i >= 0 && q >= 0
    ensures q * size <= i < q * size + size <==> i / size == q
  {
    var d := i / size;
    assert d * size <= i < d * size + size;
    if q * size <= i < q * size + size {
      if d < q {
        assert (d + 1) * size <= q * size by { MulMono(d + 1, q, size); }
      } else if d > q {
        assert (q + 1) * size <= d * size by { MulMono(q + 1, d, size); }
      }
    } else if d == q {
    }
  }

  lemma MulMono(a: int, b: int, size: int)
    requires a <= b && size >= 0
    ensures a * size <= b * size
  {
  }

  /** When the requested page exists, there is a next page exactly when items
      remain after the window the page selects. */
  lemma HasNextIffItemsRemain(totalItems: int, params: Params)
    requires params.page >= 1 && params.pageSize >= 1
    requires params.take == params.pageSize && params.skip == (params.page - 1) * params.pageSize
    requires totalItems > 0
    requires params.page <= CeilDiv(totalItems, params.pageSize)
    ensures BuildPaginatedResponse<int>([], totalItems, params.page, params.pageSize).pagination.hasNext
        <==> params.skip + params.take < totalItems
  {
    var n := CeilDiv(totalItems, params.pageSize);
    var s := params.pageSize;
    var p := params.page;
    assert params.skip + params.take == p * s;
    if p < n {
      assert p * s <= (n - 1) * s by { MulMono(p, n - 1, s); }
    } else {
      assert p == n;
    }
  }

  /** A listing request that sends neither parameter is not paginated. */
  lemma NoParametersNoPagination(options: Options)
    ensures GetPagination(Absent, Absent, options).None?
  {
  }
}

=== FILE: progress.dfy ===
/** `POST /api/progress`: records the last position read for a manga and keeps
    the farthest one. The progress table is a map from manga id to its record. */
module ProgressRoute {
  import opened Js
  import opened Http

  /** A reading position: a chapter directory path and a page number in it. */
  datatype Position = Position(chapterPath: string, pageNumber: int)

  datatype Progress = Progress(last: Position, farthest: Position)

  /** The JSON body; a field is None when it was not sent. */
  datatype ProgressBody = ProgressBody(mangaId: Option<string>, chapterPath: Option<string>, pageNumber: Option<int>)

  type ProgressTable = map<string, Progress>

  datatype Update = Update(table: ProgressTable, record: Progress)

  /** `p` is farther than `q`: a greater chapter path in string order, or the
      same chapter at a greater page. */
  predicate IsFarther(p: Position, q: Position) {
    StrLess(q.chapterPath, p.chapterPath) || (p.chapterPath == q.chapterPath && p.pageNumber > q.pageNumber)
  }

  /** The reading order on positions: `p` is not farther than `q`. */
  predicate AtOrBefore(p: Position, q: Position) {
    !IsFarther(p, q)
  }

  lemma AtOrBeforeReflexive(p: Position)
    ensures AtOrBefore(p, p)
  {
    StrLessIrreflexive(p.chapterPath);
  }

  lemma AtOrBeforeTotal(p: Position, q: Position)
    ensures AtOrBefore(p, q) || AtOrBefore(q, p)
  {
    StrLessAsymmetric(p.chapterPath, q.chapterPath);
  }

  lemma AtOrBeforeTransitive(p: Position, q: Position, r: Position)
    requires AtOrBefore(p, q) && AtOrBefore(q, r)
    ensures AtOrBefore(p, r)
  {
    if p.chapterPath != q.chapterPath {
      StrLessConnected(p.chapterPath, q.chapterPath);
    }
    if q.chapterPath != r.chapterPath {
      StrLessConnected(q.chapterPath, r.chapterPath);
    }
    if StrLess(r.chapterPath, p.chapterPath) {
      if StrLess(p.chapterPath, q.chapterPath) {
        StrLessTransitive(r.chapterPath, p.chapterPath, q.chapterPath);
        if StrLess(q.chapterPath, r.chapterPath) {
          StrLessTransitive(r.chapterPath, q.chapterPath, r.chapterPath);
          StrLessIrreflexive(r.chapterPath);
        }
      } else if q.chapterPath != r.chapterPath {
        StrLessTransitive(q.chapterPath, r.chapterPath, p.chapterPath);
      }
    }
  }

  /** Two positions each at or before the other are the same position, so
      "farther" is a strict total order. */
  lemma AtOrBeforeAntisymmetric(p: Position, q: Position)
    requires AtOrBefore(p, q) && AtOrBefore(q, p)
    ensures p == q
  {
    if p.chapterPath != q.chapterPath {
      StrLessConnected(p.chapterPath, q.chapterPath);
    }
  }

  /** The farthest position after submitting `submitted`, given the stored record. */
  function Farthest(existing: Option<Progress>, submitted: Position): (r: Position)
    ensures existing.None? ==> r == submitted
    ensures existing.Some? && IsFarther(submitted, existing.value.farthest) ==> r == submitted
    ensures existing.Some? && !IsFarther(submitted, existing.value.farthest) ==> r == existing.value.farthest
  {
    match existing
    case None => submitted
    case Some(prior) => if IsFarther(submitted, prior.farthest) then submitted else prior.farthest
  }

  /** The POST handler: validate, compute the farthest position, upsert by manga id. */
  function PostProgress(table: ProgressTable, body: ProgressBody): (r: Reply<Update>)
    ensures r.Fail? <==> !HasRequiredFields(body.mangaId, body.chapterPath, body.pageNumber)
    ensures r.Fail? ==> r.status == 400 && r.message == MissingFields
    ensures r.Ok? ==> var submitted := Position(body.chapterPath.value, body.pageNumber.value);
      && r.value.record.last == submitted
      && r.value.table == table[body.mangaId.value := r.value.record]
      && (body.mangaId.value !in table ==> r.value.record.farthest == submitted)
      && (body.mangaId.value in table ==> r.value.record.farthest == Farthest(Some(table[body.mangaId.value]), submitted))
  {
    if !HasRequiredFields(body.mangaId, body.chapterPath, body.pageNumber) then
      Fail(400, MissingFields)
    else
      var id := body.mangaId.value;
      var submitted := Position(body.chapterPath.value, body.pageNumber.value);
      var existing := if id in table then Some(table[id]) else None;
      var record := Progress(submitted, Farthest(existing, submitted));
      Ok(Update(table[id := record], record))
  }

  /** The stored farthest position becomes the later of the old one and the submitted one. */
  lemma FarthestIsTheMaximum(prior: Progress, submitted: Position)
    ensures var r := Farthest(Some(prior), submitted);
      && (r == prior.farthest || r == submitted)
      && AtOrBefore(prior.farthest, r)
      && AtOrBefore(submitted, r)
  {
    AtOrBeforeReflexive(prior.farthest);
    AtOrBeforeReflexive(submitted);
    AtOrBeforeTotal(submitted, prior.farthest);
  }

  /** An accepted submission never moves the farthest position backwards. */
  lemma NeverRegresses(table: ProgressTable, body: ProgressBody)
    requires PostProgress(table, body).Ok? && body.mangaId.value in table
    ensures AtOrBefore(table[body.mangaId.value].farthest, PostProgress(table, body).value.record.farthest)
  {
    FarthestIsTheMaximum(table[body.mangaId.value], Position(body.chapterPath.value, body.pageNumber.value));
  }

  /** Submitting the same position twice leaves the table as submitting it once. */
  lemma SubmitTwiceIsSubmitOnce(table: ProgressTable, body: ProgressBody)
    requires PostProgress(table, body).Ok?
    ensures var once := PostProgress(table, body).value;
      PostProgress(once.table, body) == Ok(once)
  {
    var id := body.mangaId.value;
    var submitted := Position(body.chapterPath.value, body.pageNumber.value);
    var once := PostProgress(table, body).value;
    if id in table {
      FarthestIsTheMaximum(table[id], submitted);
    } else {
      AtOrBeforeReflexive(submitted);
    }
    assert !IsFarther(submitted, once.record.farthest);
    assert id in once.table && once.table[id] == once.record;
    assert Farthest(Some(once.record), submitted) == once.record.farthest;
    assert once.table[id := once.record] == once.table;
  }

  /** Only the record keyed by the submitted manga id changes. */
  lemma OtherRecordsUnchanged(table: ProgressTable, body: ProgressBody, other: string)
    requires PostProgress(table, body).Ok? && other != body.mangaId.value
    ensures var t := PostProgress(table, body).value.table;
      (other in t <==> other in table) && (other in table ==> t[other] == table[other])
  {
  }

  /** Replays submissions against one manga id; the farthest position is the
      last value of this fold. */
  function SubmitAll(start: Option<Progress>, positions: seq<Position>): (r: Option<Progress>)
    ensures |positions| > 0 ==> r.Some? && r.value.last == positions[|positions| - 1]
    ensures |positions| == 0 ==> r == start
  {
    if |positions| == 0 then start
    else
      var prev := SubmitAll(start, positions[..|positions| - 1]);
      var p := positions[|positions| - 1];
      Some(Progress(p, Farthest(prev, p)))
  }

  /** After any sequence of submissions the farthest position is at or after every
      submitted position and the starting farthest one, and is one of them. */
  lemma {:induction false} FarthestDominatesHistory(start: Option<Progress>, positions: seq<Position>)
    requires |positions| > 0
    ensures var f := SubmitAll(start, positions).value.farthest;
      && (forall i :: 0 <= i < |positions| ==> AtOrBefore(positions[i], f))
      && (start.Some? ==> AtOrBefore(start.value.farthest, f))
      && (f in positions || (start.Some? && f == start.value.farthest))
  {
    var n := |positions|;
    var p := positions[n - 1];
    var init := positions[..n - 1];
    var prev := SubmitAll(start, init);
    var f := SubmitAll(start, positions).value.farthest;
    assert f == Farthest(prev, p);
    if n == 1 {
      AtOrBeforeReflexive(p);
      if start.Some? {
        FarthestIsTheMaximum(start.value, p);
      }
    } else {
      FarthestDominatesHistory(start, init);
      var g := prev.value.farthest;
      FarthestIsTheMaximum(prev.value, p);
      forall i | 0 <= i < n ensures AtOrBefore(positions[i], f) {
        if i < n - 1 {
          assert positions[i] == init[i];
          AtOrBeforeTransitive(positions[i], g, f);
        }
      }
      if start.Some? {
        AtOrBeforeTransitive(start.value.farthest, g, f);
      }
      if g in init {
        assert g in positions;
      }
    }
  }

  /** The table after posting `positions` for manga `id` one request after another. */
  function PostAll(table: ProgressTable, id: string, positions: seq<Position>): ProgressTable {
    if |positions| == 0 then table
    else
      var before := PostAll(table, id, positions[..|positions| - 1]);
      var p := positions[|positions| - 1];
      match PostProgress(before, ProgressBody(Some(id), Some(p.chapterPath), Some(p.pageNumber)))
      case Ok(u) => u.table
      case Fail(_, _) => before
  }

  /** Posting positions one after another stores for that manga exactly the record
      the fold `SubmitAll` computes from its prior record. */
  lemma {:induction false} PostAllIsSubmitAll(table: ProgressTable, id: string, positions: seq<Position>)
    requires id != ""
    requires forall i :: 0 <= i < |positions| ==> positions[i].chapterPath != ""
    ensures var t := PostAll(table, id, positions);
      var start := if id in table then Some(table[id]) else None;
      |positions| > 0 ==> id in t && Some(t[id]) == SubmitAll(start, positions)
  {
    var n := |positions|;
    if n > 0 {
      var init := positions[..n - 1];
      var p := positions[n - 1];
      var before := PostAll(table, id, init);
      var start := if id in table then Some(table[id]) else None;
      if n > 1 {
        PostAllIsSubmitAll(table, id, init);
        assert Some(before[id]) == SubmitAll(start, init);
      } else {
        assert init == [];
        assert before == table;
      }
      var body := ProgressBody(Some(id), Some(p.chapterPath), Some(p.pageNumber));
      var existing := if id in before then Some(before[id]) else None;
      assert existing == SubmitAll(start, init);
      var u := PostProgress(before, body).value;
      assert u.record == Progress(p, Farthest(existing, p));
    }
  }

  /** Through the route itself: after posting positions for one manga, its stored
      farthest position is at or after every posted position and is one of them or
      the farthest stored before. */
  lemma PostedFarthestDominates(table: ProgressTable, id: string, positions: seq<Position>)
    requires id != "" && |positions| > 0
    requires forall i :: 0 <= i < |positions| ==> positions[i].chapterPath != ""
    ensures var t := PostAll(table, id, positions);
      && id in t
      && (forall i :: 0 <= i < |positions| ==> AtOrBefore(positions[i], t[id].farthest))
      && (id in table ==> AtOrBefore(table[id].farthest, t[id].farthest))
      && (t[id].farthest in positions || (id in table && t[id].farthest == table[id].farthest))
  {
    PostAllIsSubmitAll(table, id, positions);
    FarthestDominatesHistory(if id in table then Some(table[id]) else None, positions);
  }
}

=== FILE: reader_store.dfy ===
/** The reader store: one boolean, the chapter view mode, kept in step with the
    browser's key-value storage under the key `chapterViewMode`. The storage is
    a map from key to string. */
module ReaderStore {
  const Key := "chapterViewMode"

  type Storage = map<string, string>

  datatype Reader = Reader(chapterViewMode: bool, storage: Storage)

  /** `String(b)`. */
  function BoolString(b: bool): (r: string)
    ensures r == "true" <==> b
  {
    if b then "true" else "false"
  }

  /** The stored string agrees with the mode. */
  predicate Consistent(r: Reader) {
    Key in r.storage && r.storage[Key] == BoolString(r.chapterViewMode)
  }

  /** Creating the store: false, unless a value is stored; then whether it is exactly `"true"`. */
  function Init(storage: Storage): (r: Reader)
    ensures r.storage == storage
    ensures Key !in storage ==> !r.chapterViewMode
    ensures Key in storage ==> (r.chapterViewMode <==> storage[Key] == "true")
  {
    Reader(Key in storage && storage[Key] == "true", storage)
  }

  /** `toggleChapterViewMode()`. */
  function Toggle(r: Reader): (s: Reader)
    ensures s.chapterViewMode == !r.chapterViewMode
    ensures Consistent(s)
    ensures forall k :: k != Key ==> (k in s.storage <==> k in r.storage)
    ensures forall k :: k != Key && k in r.storage ==> s.storage[k] == r.storage[k]
  {
    var mode := !r.chapterViewMode;
    Reader(mode, r.storage[Key := BoolString(mode)])
  }

  /** `setChapterViewMode(value)`. */
  function Set(r: Reader, value: bool): (s: Reader)
    ensures s.chapterViewMode == value
    ensures Consistent(s)
    ensures forall k :: k != Key ==> (k in s.storage <==> k in r.storage)
    ensures forall k :: k != Key && k in r.storage ==> s.storage[k] == r.storage[k]
  {
    Reader(value, r.storage[Key := BoolString(value)])
  }

  /** Two toggles restore the mode and leave the stored string matching it; from
      a consistent state they restore the whole store. */
  lemma ToggleTwice(r: Reader)
    ensures Toggle(Toggle(r)).chapterViewMode == r.chapterViewMode
    ensures Toggle(Toggle(r)).storage == r.storage[Key := BoolString(r.chapterViewMode)]
    ensures Consistent(r) ==> Toggle(Toggle(r)) == r
  {
    if Consistent(r) {
      assert r.storage[Key := BoolString(r.chapterViewMode)] == r.storage;
    }
  }

  /** Setting the same value twice is setting it once. */
  lemma SetIdempotent(r: Reader, value: bool)
    ensures Set(Set(r, value), value) == Set(r, value)
  {
    var once := Set(r, value);
    assert once.storage[Key := BoolString(value)] == once.storage;
  }

  /** A later store created from what was saved starts in the mode left behind. */
  lemma InitRestoresSavedMode(r: Reader, value: bool)
    ensures Init(Toggle(r).storage).chapterViewMode == Toggle(r).chapterViewMode
    ensures Init(Set(r, value).storage).chapterViewMode == value
  {
  }

  /** Storage written by the store always reads back as the same store. */
  lemma InitOfConsistent(r: Reader)
    requires Consistent(r)
    ensures Init(r.storage) == r
  {
  }

  /** Toggling is setting the opposite of the current mode. */
  lemma ToggleIsSetOpposite(r: Reader)
    ensures Toggle(r) == Set(r, !r.chapterViewMode)
  {
  }
}
